=== FILE: README.md ===
# Sharing Cloud persistence core in Dafny

Sharing Cloud is a Swing groupware client over MySQL. Users form groups
joined by a random key. Groups share pages, which are files with a
parent-linked revision history, and users comment on pages. This project
models the persistence logic under the user interface:

- the revision store: pages, revisions and content blobs, and each page's
  latest_revision_id column (`PageManager`, `RevisionManager`,
  `FileDataManager`);
- the group and comment rules (`GroupManager`, `CommentManager`);
- the decision logic in the controllers and the file helper
  (`PageController`, `RevisionController`, `FileIo`).

The database is a value `Schema.Db`:

- Each table is a finite map from an AUTO_INCREMENT id to a row, plus the
  next id the counter will hand out. `users` is read-only.
- Each SQL statement is a total function from the store and a `Fault` to a
  result and a new store.
- A `Plan` says which statement of an operation fails and how:
  - `Error` throws before anything is written;
  - `NoGeneratedKey` is an INSERT that wrote its row but returned no key;
  - `Connect` is the pool failing to lend a connection.
- Java exceptions are `Outcome.Threw`.
- A rollback restores the pre-state.
- A transaction commits only when every statement succeeds.
- `insertRevision` runs without a transaction, so its earlier writes persist
  after a later failure.

Inputs stand in for everything the code does not compute itself:

- the SHA-256 digest bytes;
- the `SecureRandom` draws (`GroupManager.Random`);
- the timestamps (`now`);
- the logged-in user (`me`);
- the file named by the file helper's retained path and what reading it
  delivers (`FileIo.FileChoice`). That path is the last approved choice, and
  a later cancel does not clear it.

Result order: SQL without ORDER BY promises none. The model lists rows by
ascending id, and comments by `created_at` and then by id
(`Listing.OrderBy`).

The model follows the code as written:

- Appending a revision is not a unit of work. A failure at the latest_revision_id update
  leaves the blob and the revision written and visible.
- Nothing checks that a parent revision exists or belongs to the same page.
- Reading the latest_revision_id of a missing page returns -1; it does not fail.
- Reading a missing revision returns null; it does not fail.
- The blob read (`getFileData`) is an empty stub.
- A comment in `makeGroupMembership` says an existing membership gives true.
  The code returns false, so `joinGroup` reports -2.

## Model

| member | source | states |
|---|---|---|
| Listing.OrderBy | src/CommentManager.java:124-127 | lists every id of the set exactly once, in ascending key order with ties broken by id |
| Checksum.Hex | src/PageManager.java:48-56 | the rendering has exactly two characters per digest byte |
| Checksum.ByteHexDigits | src/PageManager.java:50-54 | padding makes each byte its high and its low lowercase hex digit |
| Checksum.HexIsLowercaseHex | src/PageManager.java:48-56 | the checksum contains only the characters 0-9 and a-f |
| Checksum.CalculateChecksum | src/PageManager.java:43-63 | the StringBuilder loop over the digest produces exactly the reference rendering `Hex` |
| Checksum.HexRoundTrip | src/PageManager.java:48-56 | parsing the checksum back gives the digest, so the rendering loses nothing |
| Checksum.HexInjective | src/PageManager.java:48-56 | two digests have the same checksum exactly when they are equal |
| FileDataManager.InsertFileData | src/FileDataManager.java:9-35 | success exactly when no fault; the fresh id is returned and holds content and checksum; an error writes nothing; a missing key leaves the row written and throws; only file_data changes |
| FileDataManager.DeleteFileData | src/FileDataManager.java:37-45 | returns 1 if the blob existed and 0 otherwise; only that row is removed; every other blob is unchanged |
| FileDataManager.NoDeduplication | src/FileDataManager.java:9-35 | storing identical content twice yields two distinct ids, each holding the content |
| RevisionManager.InsertRevision | src/RevisionManager.java:21-65 | one row with the given page, author, parent (NULL stays NULL), message and blob under a fresh id, which is returned; an error throws with nothing written; a missing generated key throws with the row already written; only file_revisions changes |
| RevisionManager.DeleteRevision | src/RevisionManager.java:74-85 | removes only that id, returns 1 or 0, and leaves child revisions as they are |
| RevisionManager.GetRevision | src/RevisionManager.java:92-127 | null exactly for an absent id; otherwise the stored fields, with a NULL parent read as 0 |
| RevisionManager.GetRevisionsByPageId | src/RevisionManager.java:136-168 | every listed record is a stored revision of the page; every revision of the page is listed; none twice |
| RevisionManager.InsertThenGet | src/RevisionManager.java:21-127 | a revision reads back as written, a root revision with parent 0 |
| PageManager.InsertPage | src/PageManager.java:203-230 | a page row with a NULL latest_revision_id under a fresh id; a missing generated key throws with the row already written; only pages changes |
| PageManager.UpdatePageLatestRevision | src/PageManager.java:240-257 | succeeds exactly when the page exists and nothing fails; only that page's latest_revision_id changes |
| PageManager.GetLatestRevisionId | src/PageManager.java:481-505 | -1 for an absent page or any failure; a non-negative answer implies the page exists |
| PageManager.DeletePageRecord | src/PageManager.java:361-371 | returns 1 or 0 by existence and removes only that page row |
| PageManager.SearchPage | src/PageManager.java:69-95 | exactly the group's pages, each once and as stored; an SQL error gives the empty list |
| PageManager.MakePage | src/PageManager.java:112-192 | on a well-formed store it succeeds exactly when every statement does; a failure returns -1 with the store as before; success returns the fresh page id |
| PageManager.DeleteEachEffect | src/PageManager.java:283-300 | the cleanup loop completes exactly when all its deletes succeed, and then has removed exactly the listed revisions and their blobs |
| PageManager.DeletePage | src/PageManager.java:270-352 | the store ends untouched or with the whole cascade applied; a missing page leaves it untouched; for an existing page the cascade happens exactly when every statement succeeds |
| PageManager.InsertRevision | src/PageManager.java:396-415 | on a well-formed store it returns an id exactly when the page exists and blob, revision and latest_revision_id statements succeed; that id is the fresh revision id |
| PageLifecycle.MakePageCommits | src/PageManager.java:124-150 | a committed page adds exactly one page of the group and name, one blob with the content and its hex checksum, and one root revision by the user on that blob; the latest-revision column names that revision |
| PageLifecycle.MakePagePreservesConsistency | src/PageManager.java:112-192 | every page pointing at an existing revision of its own survives `makePage` under every fault plan |
| PageLifecycle.MakePageIsListed | src/PageManager.java:69-150 | a committed page appears in its group's page list |
| PageLifecycle.LatestAfterUpdate | src/PageManager.java:240-257 | after an update, reading latest_revision_id gives the value written, and every other page reads as before |
| PageLifecycle.LatestIsOwnRevision | src/PageManager.java:481-505 | in a consistent store, reading latest_revision_id gives an existing revision of that page |
| PageLifecycle.InsertRevisionAppends | src/PageManager.java:396-408 | a full success adds one blob and one revision with the given parent, and moves the page's latest_revision_id to it |
| PageLifecycle.InsertRevisionOnMissingPage | src/PageManager.java:396-414 | on a missing page the call returns -1, but the blob and the revision rows stay written |
| PageLifecycle.InsertRevisionIgnoresParent | src/RevisionManager.java:21-65 | the parent value never changes the outcome: it is not validated |
| PageLifecycle.InsertRevisionPreservesConsistency | src/PageManager.java:396-415 | partial writes never leave a page pointing outside its own revisions |
| PageLifecycle.CascadeRemovesPage | src/PageManager.java:283-310 | after the cascade the page lists no revisions; its blobs are gone; other pages, their revisions and unrelated blobs are unchanged |
| PageLifecycle.DeletePagePreservesConsistency | src/PageManager.java:270-352 | `deletePage` keeps every remaining page pointing at an existing revision of its own |
| CommentManager.InsertComment | src/CommentManager.java:23-66 | succeeds exactly when the author exists and nothing fails; an unknown author throws with nothing written; the row copies the author's current name |
| CommentManager.DeleteComment | src/CommentManager.java:76-110 | a missing comment throws; another user's request returns 0 and deletes nothing; the author's request deletes exactly that comment and returns 1 |
| CommentManager.GetComments | src/CommentManager.java:120-145 | exactly the page's comments, each once, oldest first, each named from the current users table or with the fallback name |
| CommentManager.DeleteAllComments | src/CommentManager.java:152-162 | removes every comment of the page and no other; an SQL error changes nothing |
| CommentManager.InsertThenList | src/CommentManager.java:23-145 | a comment written successfully is listed for its page under the author's name |
| CommentManager.DeleteAllThenEmpty | src/CommentManager.java:152-162 | after deleting all comments of a page it lists none |
| GroupManager.Candidate | src/GroupManager.java:380-386 | each attempt builds a key of length 10 over the 62 alphanumerics |
| GroupManager.TryKeys | src/GroupManager.java:373-414 | a generated key is used by no existing group |
| GroupManager.TryKeysFindsFirstFree | src/GroupManager.java:380-413 | the key returned is the first candidate not in use, and it is well formed |
| GroupManager.TryKeysFailsOnlyOnCollisions | src/GroupManager.java:380-412 | without database errors, generation fails exactly when all ten candidates are taken |
| GroupManager.GenerateUniqueJoinKey | src/GroupManager.java:373-414 | the loop with its attempt counter and flag computes the reference `TryKeys`, so its key is unused |
| GroupManager.MakeGroupMembership | src/GroupManager.java:112-171 | true exactly when no membership of the pair exists and every statement succeeds, and then exactly one membership with the role is added; an existing membership changes nothing |
| GroupManager.GroupByKey | src/GroupManager.java:180-193 | none exactly when no group has the key; otherwise a group holding the key, the one with the smallest id |
| GroupManager.GetGroupIdByJoinKey | src/GroupManager.java:421-442 | -1 when no group has the key or anything fails; otherwise the id of a group holding the key |
| GroupManager.JoinGroup | src/GroupManager.java:178-212 | returns -1, -2 or 1; -1 exactly when the lookup fails or finds nothing, and then nothing changes; 1 adds a "user" membership for the manager's own user; -2 leaves whatever the membership insert left, including a row written before a missing generated key |
| GroupManager.MakeGroup | src/GroupManager.java:69-104 | key-generation failure escapes as an exception; on success the group row has a fresh, unused key and the current user as creator; an insert error writes nothing; a missing generated key returns -1 but leaves the group row written, without an admin membership |
| GroupManager.DeleteData | src/GroupManager.java:258-294 | memberships go first and stay deleted when the group-row delete fails |
| GroupManager.DeleteGroup | src/GroupManager.java:219-252 | true exactly for the creator with every statement succeeding, and then the group and its memberships are removed; a missing group or another user changes nothing |
| GroupManager.MakeGroupThenLookUp | src/GroupManager.java:69-104 | a clean `makeGroup` returns the fresh id and makes the creator an admin member; the new key finds that group |
| GroupManager.JoinTwice | src/GroupManager.java:205-211 | a second join with the same key reports -2 and changes nothing |
| GroupManager.DeleteGroupRemovesMembers | src/GroupManager.java:258-294 | after a successful delete nobody is a member of the group, and other groups' memberships are unchanged |
| PageController.GetAllPagesCon | src/PageController.java:44-54 | null exactly when no connection can be had |
| PageController.GetAllRevisionsCon | src/PageController.java:92-104 | null exactly on a failure; otherwise the page's revision list |
| PageController.GetAllCommentsCon | src/PageController.java:106-117 | null exactly on a failure; otherwise the page's comment list |
| PageController.DeleteCommentCon | src/PageController.java:138-145 | deletes nothing, or exactly the requester's own comment |
| PageController.DeleteEachCommentEffect | src/PageController.java:85-87 | the loop deletes only the requester's comments and touches no other table |
| PageController.DeletePageCon | src/PageController.java:75-90 | a user who did not create the group gets false and no change; for the creator the result is true, or an exception when the comment list came back null |
| PageController.DeletePageConKeepsOthersComments | src/PageController.java:75-90 | comments by other users survive; pages, revisions and blobs change exactly as `deletePage` decides |
| PageController.DeletePageConRemovesOwnComments | src/PageController.java:83-89 | with every statement succeeding, the creator's own comments on the page are removed and the result is true |
| RevisionController.InsertRevisionCon | src/RevisionController.java:67-90 | true exactly when the parent is 0 or appears in the list; otherwise nothing is written |
| RevisionController.ListedParentIsUsed | src/RevisionController.java:76-83 | a non-zero parent found in the list is stored as the new revision's parent, and the new revision becomes the latest |
| RevisionController.InsertRevNoparent | src/RevisionController.java:95-104 | always stores what an upload with parent 0 stores, whatever revision list is shown |
| RevisionController.NoparentIsPreviousLatest | src/RevisionController.java:95-104 | on an existing page the previous latest revision becomes the parent, and the new revision becomes the latest |
| RevisionController.AutoParentIsPreviousLatest | src/RevisionController.java:70-75 | with parent 0 the new revision's parent is the previous latest, and it becomes the latest |
| RevisionController.UnlistedParentRefused | src/RevisionController.java:76-89 | a non-zero parent missing from the list gives false and no write |
| RevisionController.TrueDespiteFailedInsert | src/RevisionController.java:67-90 | the result is true even when the insert failed and stored nothing |
| RevisionController.NoparentOnMissingPage | src/RevisionController.java:95-104 | on a missing page the parent -1 is stored in an orphan revision |
| FileIo.LastIndexOf | src/FileIo.java:226 | -1 exactly when the character is absent; otherwise its last position |
| FileIo.GetFileExtension | src/FileIo.java:224-236 | an extension is a non-empty suffix of the name without a '.', preceded by a '.' |
| FileIo.ExtensionAbsent | src/FileIo.java:224-236 | no extension exactly when the name has no '.' or ends in one |
| FileIo.ExtensionSplits | src/FileIo.java:226-229 | an extension is non-empty, contains no '.', and the name is the text before the last dot, a '.', and the extension |
| FileIo.FixDownloadPath | src/FileIo.java:114-116 | the result ends with "." and the extension, and starts with the chosen path |
| FileIo.FixDownloadPathIdempotent | src/FileIo.java:114-116 | fixing a fixed path changes nothing |
| FileIo.SelectDownloadPath | src/FileIo.java:92-126 | nothing is written without an extension or a chosen path; a written path carries the extension |
| FileIo.TrimEmpty | src/FileIo.java:189 | a message is blank after trim exactly when all its characters are at most ' ' |
| FileIo.InsertFileToPage | src/FileIo.java:131-170 | false with no change without a readable file; otherwise true exactly when `makePage` commits |
| FileIo.InsertFileToRevision | src/FileIo.java:178-215 | true exactly for a readable file with a message that is not blank; a refusal writes nothing |
| FileIo.FileDownLoad | src/FileIo.java:63-86 | a failed query leaves the previous buffer in place |
| FileIo.DownloadRevision | src/FileIo.java:63-86 | a failed query leaves the previous buffer in place |
| FileIo.InsertRevisionThenDownload | src/PageManager.java:396-415 | a revision written by `insertRevision` downloads its own content when the blob is looked up through the revision |
| FileIo.LockStepDownloadsAgree | src/FileIo.java:65 | while blob and revision ids move in lock step, the download as written equals the intended one |
| FileIo.MakePagePreservesLockStep | src/PageManager.java:131-145 | `makePage` keeps the lock step under every fault plan |
| FileIo.InsertRevisionPreservesLockStep | src/PageManager.java:398-407 | `insertRevision` keeps the lock step unless the blob is written without its revision |
| FileIo.DeletePagePreservesLockStep | src/PageManager.java:283-310 | `deletePage` keeps the lock step |
| FileIo.OrphanBlobBreaksDownload | src/FileIo.java:63-73 | a concrete run in which the download as written returns another revision's content |

## Left out

- The Swing editors, dialogs, file choosers and `show*` printers: user interface with no stateable behaviour.
- The `ConnectionManager` pool configuration: infrastructure. Failing to get a connection is the `Connect` fault.
- `UserManager`: a wrapper over BCrypt, a foreign library. The `users` table is read-only input.
- The SHA-256 digest: opaque. The digest bytes are an input, and only their hex rendering is modelled.
- `SecureRandom`: replaced by caller-supplied draws.
- Database timestamps: replaced by a caller-supplied natural.
- JDBC mechanics: auto-commit resetting, closing connections, the branch where the rollback itself fails, and `executeUpdate` counts other than 0 or 1.
- PageManager.SearchPage: an SQL error raised by `rs.next()` partway through the loop returns the pages already read (src/PageManager.java:80-93). The model treats every SQL error as happening before the first row and returns the empty list.
- FileIo.InsertFileToRevision: the revision controller reuses one file helper, so a cancelled chooser re-uploads the last approved file. The model does not track that retained path across calls; `FileChoice` must be given as the retained file, and `NoFileChosen` stands only for an object on which no file was ever approved.
- Connection faults: one plan entry covers every connection an operation borrows. The model cannot fail the second borrow while the first succeeds, for example in `insertRevision_con`.
- MySQL does not give AUTO_INCREMENT values back on rollback. The model restores the counters, so it understates how often blob and revision ids drift apart.
- Disk reads and writes and UTF-8 decoding: I/O. `FileIo.FileChoice` carries what the read would deliver.
- Concurrent writers racing on the latest_revision_id: the code has no locking, and concurrency is outside this model.
- `FileDataManager.getFileData`: an empty stub, so there is nothing to model.
- The `PageManager` wrappers around the comment manager (`insertComment`, `deleteComment`, `getComments`), the `PageManager.getRevisionsByPageId` wrapper, `GroupManager.searchGroup`, `selectGroup`, `getJoinKey` and `getGroupNameByJoinKey`: reads and delegations outside the modelled core.
- Page and comment removal when a whole group is deleted happens in the group editor. It is user-interface code, so `GroupManager.DeleteGroup` touches only groups and memberships.
- Java `long` overflow of ids: ids are unbounded integers.
- Checksum.CalculateChecksum: does not model the null checksum returned when SHA-256 is unavailable.
- FileIo.FileDownLoad: its own contract states only the failure path. What it reads on success is stated by `FileIo.LockStepDownloadsAgree` and `FileIo.OrphanBlobBreaksDownload`.
- GroupManager.KeyInUse: join keys are compared by exact string equality. The SQL comparison `join_key = ?` follows the column's collation, which is not part of this model. Under a case-insensitive collation, keys that differ only in case would collide, and a join with a differently-cased key would succeed.
- GroupManager.GroupByKey: when several groups share a key, MySQL may return any of them first. The model picks the smallest id.

## Findings

| source | as written | input that shows it | evidently intended | confidence | as-written member | corrected member |
|---|---|---|---|---|---|---|
| src/FileIo.java:65 | the download reads the blob whose id equals the revision id, assuming the two counters always agree | 1. `insertRevision` on page 1 fails at the revision INSERT after its blob INSERT, leaving blob 1. 2. A second `insertRevision` stores its content as blob 2 under revision 1. 3. Downloading revision 1 returns blob 1's content | read the blob named by the revision's `actual_data_id` | not executed | FileIo.FileDownLoad, FileIo.OrphanBlobBreaksDownload | FileIo.DownloadRevision, FileIo.InsertRevisionThenDownload |

=== FILE: checksum.dfy ===
/**
 The text form of a file checksum: each byte of the SHA-256 digest as two
 lowercase hex digits. The digest itself is an input; only its rendering is
 modelled.
 */
module Checksum {
  import opened Common

  const HexDigits: string := "0123456789abcdef"

  /** A character of `HexDigits`. */
  predicate IsHexDigit(c: char) {
    '0' <= c <= '9' || 'a' <= c <= 'f'
  }

  /** `0xff & b`: the byte read as unsigned. */
  function Unsigned(b: Byte): (n: int)
    ensures 0 <= n < 256
  {
    if b < 0 then b as int + 256 else b as int
  }

  /** `Integer.toHexString(n)` for `0 <= n < 256`: lowercase, no leading zero. */
  function ToHexString(n: int): (h: string)
    requires 0 <= n < 256
  {
    if n < 16 then [HexDigits[n]] else [HexDigits[n / 16], HexDigits[n % 16]]
  }

  /** One byte as the loop appends it: padded with '0' to two digits. */
  function ByteHex(b: Byte): string {
    var hex := ToHexString(Unsigned(b));
    if |hex| == 1 then "0" + hex else hex
  }

  /** Padding makes every byte exactly its high and low hex digit. */
  lemma ByteHexDigits(b: Byte)
    ensures ByteHex(b) == [HexDigits[Unsigned(b) / 16], HexDigits[Unsigned(b) % 16]]
    ensures IsHexDigit(ByteHex(b)[0]) && IsHexDigit(ByteHex(b)[1])
  {
  }

  /** The rendering of a whole digest, byte by byte from the front. */
  function Hex(digest: seq<Byte>): (s: string)
    ensures |s| == 2 * |digest|
  {
    if digest == [] then ""
    else
      ByteHexDigits(digest[|digest| - 1]);
      Hex(digest[..|digest| - 1]) + ByteHex(digest[|digest| - 1])
  }

  /** The checksum holds only lowercase hex digits. */
  lemma {:induction false} HexIsLowercaseHex(digest: seq<Byte>)
    ensures forall i :: 0 <= i < |Hex(digest)| ==> IsHexDigit(Hex(digest)[i])
  {
    if digest != [] {
      var init := digest[..|digest| - 1];
      var b := digest[|digest| - 1];
      HexIsLowercaseHex(init);
      ByteHexDigits(b);
      assert Hex(digest) == Hex(init) + ByteHex(b);
    }
  }

  /** The rendering loop of the checksum computation. */
  method CalculateChecksum(digest: seq<Byte>) returns (hexString: string)
    ensures hexString == Hex(digest)
  {
    hexString := "";
    var k := 0;
    while k < |digest|
      invariant 0 <= k <= |digest|
      invariant hexString == Hex(digest[..k])
    {
      ghost var before := hexString;
      var hex := ToHexString(Unsigned(digest[k]));
      if |hex| == 1 {
        hexString := hexString + "0";
      }
      hexString := hexString + hex;
      assert hexString == before + ByteHex(digest[k]);
      HexSnoc(digest[..k], digest[k]);
      assert digest[..k] + [digest[k]] == digest[..k + 1];
      k := k + 1;
    }
    assert digest[..k] == digest;
  }

  lemma HexSnoc(d: seq<Byte>, b: Byte)
    ensures Hex(d + [b]) == Hex(d) + ByteHex(b)
  {
    assert (d + [b])[..|d|] == d;
  }

  // ---------------------------------------------------------------- decoding

  /** The value of a hex digit (0 for any other character). */
  function DigitValue(c: char): int {
    if '0' <= c <= '9' then c as int - '0' as int
    else if 'a' <= c <= 'f' then c as int - 'a' as int + 10
    else 0
  }

  /** Two hex digits back to the signed byte they render. */
  function ByteOf(hi: char, lo: char): Byte {
    var n := 16 * DigitValue(hi) + DigitValue(lo);
    if 0 <= n < 128 then n as Byte else if 128 <= n < 256 then (n - 256) as Byte else 0
  }

  /** The inverse rendering, two characters per byte. */
  function ParseHex(s: string): seq<Byte> {
    if |s| < 2 then [] else ParseHex(s[..|s| - 2]) + [ByteOf(s[|s| - 2], s[|s| - 1])]
  }

  lemma DigitValueOf(k: int)
    requires 0 <= k < 16
    ensures DigitValue(HexDigits[k]) == k
  {
  }

  lemma ByteHexRoundTrip(b: Byte)
    ensures |ByteHex(b)| == 2
    ensures ByteOf(ByteHex(b)[0], ByteHex(b)[1]) == b
  {
    var u := Unsigned(b);
    ByteHexDigits(b);
    DigitValueOf(u / 16);
    DigitValueOf(u % 16);
    assert 16 * (u / 16) + u % 16 == u;
  }

  lemma ParseHexSnoc(t: string, h: string)
    requires |t| % 2 == 0 && |h| == 2
    ensures ParseHex(t + h) == ParseHex(t) + [ByteOf(h[0], h[1])]
  {
    var s := t + h;
    assert s[..|s| - 2] == t;
  }

  /** Each byte is rendered recoverably, so distinct digests give distinct checksums. */
  lemma {:induction false} HexRoundTrip(digest: seq<Byte>)
    ensures ParseHex(Hex(digest)) == digest
  {
    if digest != [] {
      var init := digest[..|digest| - 1];
      var b := digest[|digest| - 1];
      assert digest == init + [b];
      var h := ByteHex(b);
      ByteHexRoundTrip(b);
      assert Hex(digest) == Hex(init) + h;
      ParseHexSnoc(Hex(init), h);
      HexRoundTrip(init);
      assert ParseHex(Hex(digest)) == init + [b];
    }
  }

  lemma HexInjective(d1: seq<Byte>, d2: seq<Byte>)
    ensures Hex(d1) == Hex(d2) <==> d1 == d2
  {
    if Hex(d1) == Hex(d2) {
      HexRoundTrip(d1);
      HexRoundTrip(d2);
    }
  }
}

=== FILE: comment_manager.dfy ===
/** The `comments` table: author-only deletion and the per-page listing. */
module CommentManager {
  import opened Common
  import opened Schema
  import Listing

  /** The name shown for an author whose `users` row no longer exists. */
  const FallbackName: string := "탈퇴한 사용자"

  /**
   SELECT the author's name, then INSERT INTO comments. An unknown user
   throws before anything is written; the row copies the author's name as
   it is at insert time.
   */
  function InsertComment(db: Db, pageId: int, userId: int, content: string, now: nat, plan: Plan): (r: Exec<()>)
    ensures r.result.Returned? <==>
      Ok(plan, SelectUserName) && userId in db.users && Ok(plan, InsertCommentRow)
    ensures !Ok(plan, SelectUserName) || userId !in db.users ==> r.db == db
    ensures Ok(plan, SelectUserName) && userId in db.users && At(plan, InsertCommentRow) != Error ==>
      r.db.comments == db.comments.Add(CommentRow(pageId, userId, db.users[userId].userName, content, now))
    ensures r.db == db.(comments := r.db.comments)
  {
    if !Ok(plan, SelectUserName) || userId !in db.users then Exec(Threw, db)
    else
      var row := CommentRow(pageId, userId, db.users[userId].userName, content, now);
      var (o, t) := InsertRow(db.comments, row, At(plan, InsertCommentRow));
      Exec(if o.Returned? then Returned(()) else Threw, db.(comments := t))
  }

  /**
   Look the comment's author up, then delete only when the requester is the
   author. A missing comment throws; another user's request deletes nothing
   and returns 0.
   */
  function DeleteComment(db: Db, commentId: int, userId: int, plan: Plan): (r: Exec<int>)
    ensures r.result.Threw? <==>
      || !Ok(plan, SelectCommentAuthor(commentId))
      || commentId !in db.comments.rows
      || (db.comments.rows[commentId].commentedByUserId == userId && !Ok(plan, DeleteCommentRow(commentId)))
    ensures r.result.Threw? ==> r.db == db
    ensures r.result.Returned? ==>
      if db.comments.rows[commentId].commentedByUserId == userId
      then r.result.value == 1 && r.db == db.(comments := db.comments.Remove(commentId))
      else r.result.value == 0 && r.db == db
  {
    if !Ok(plan, SelectCommentAuthor(commentId)) || commentId !in db.comments.rows then Exec(Threw, db)
    else if db.comments.rows[commentId].commentedByUserId != userId then Exec(Returned(0), db)
    else if !Ok(plan, DeleteCommentRow(commentId)) then Exec(Threw, db)
    else Exec(Returned(1), db.(comments := db.comments.Remove(commentId)))
  }

  /** The author's current name, or the fallback for a removed user (the LEFT JOIN and COALESCE). */
  function AuthorName(users: map<int, UserRow>, userId: int): string {
    if userId in users then users[userId].userName else FallbackName
  }

  function CommentOf(users: map<int, UserRow>, id: int, row: CommentRow): Comment {
    Comment(id, row.pageId, row.commentedByUserId, AuthorName(users, row.commentedByUserId), row.commentData, row.createdAt)
  }

  function IdsOfPage(db: Db, pageId: int): set<int> {
    set id | id in db.comments.rows && db.comments.rows[id].pageId == pageId
  }

  /** The creation time of a stored comment, the listing's sort key. */
  function CreatedAt(rows: map<int, CommentRow>): int -> int {
    id => if id in rows then rows[id].createdAt else 0
  }

  function Comments(users: map<int, UserRow>, rows: map<int, CommentRow>, ids: seq<int>): (r: seq<Comment>)
    requires forall i :: 0 <= i < |ids| ==> ids[i] in rows
    ensures |r| == |ids|
    ensures forall i :: 0 <= i < |ids| ==> r[i] == CommentOf(users, ids[i], rows[ids[i]])
  {
    if ids == [] then [] else [CommentOf(users, ids[0], rows[ids[0]])] + Comments(users, rows, ids[1..])
  }

  function CommentIdsOf(cs: seq<Comment>): (r: seq<int>)
    ensures |r| == |cs|
    ensures forall i :: 0 <= i < |cs| ==> r[i] == cs[i].commentId
  {
    if cs == [] then [] else [cs[0].commentId] + CommentIdsOf(cs[1..])
  }

  /**
   SELECT ... LEFT JOIN users ... WHERE page_id = ? ORDER BY created_at: the
   page's comments, each once, oldest first, each carrying the author's
   current name.
   */
  function GetComments(db: Db, pageId: int, f: Fault): (r: Outcome<seq<Comment>>)
    ensures r.Returned? <==> f == NoFault
    ensures r.Returned? ==> forall i :: 0 <= i < |r.value| ==>
      && r.value[i].commentId in db.comments.rows
      && r.value[i] == CommentOf(db.users, r.value[i].commentId, db.comments.rows[r.value[i].commentId])
      && r.value[i].pageId == pageId
    ensures r.Returned? ==> forall id :: id in db.comments.rows && db.comments.rows[id].pageId == pageId ==>
      id in CommentIdsOf(r.value)
    ensures r.Returned? ==> forall i, j :: 0 <= i < j < |r.value| ==>
      r.value[i].commentId != r.value[j].commentId && r.value[i].createdAt <= r.value[j].createdAt
  {
    if f != NoFault then Threw
    else
      var ids := Listing.OrderBy(IdsOfPage(db, pageId), CreatedAt(db.comments.rows));
      var cs := Comments(db.users, db.comments.rows, ids);
      assert CommentIdsOf(cs) == ids;
      Returned(cs)
  }

  /**
   DELETE FROM comments WHERE page_id = ?. An SQL error is swallowed and
   leaves the table as it was.
   */
  function DeleteAllComments(db: Db, pageId: int, f: Fault): (r: Db)
    ensures f != NoFault ==> r == db
    ensures f == NoFault ==> forall id :: id in r.comments.rows ==> r.comments.rows[id].pageId != pageId
    ensures forall id :: id in db.comments.rows && db.comments.rows[id].pageId != pageId ==>
      id in r.comments.rows && r.comments.rows[id] == db.comments.rows[id]
    ensures forall id :: id in r.comments.rows ==> id in db.comments.rows
    ensures r == db.(comments := r.comments) && r.comments.next == db.comments.next
  {
    if f != NoFault then db
    else db.(comments := db.comments.RemoveAll(IdsOfPage(db, pageId)))
  }

  // ---------------------------------------------------------------- properties

  /** A comment written successfully is listed for its page under the author's current name. */
  lemma InsertThenList(db: Db, pageId: int, userId: int, content: string, now: nat, plan: Plan)
    requires db.comments.Wf()
    requires InsertComment(db, pageId, userId, content, now, plan).result.Returned?
    ensures var w := InsertComment(db, pageId, userId, content, now, plan).db;
      var l := GetComments(w, pageId, NoFault).value;
      exists i :: 0 <= i < |l| &&
        l[i] == Comment(db.comments.next, pageId, userId, db.users[userId].userName, content, now)
  {
    var w := InsertComment(db, pageId, userId, content, now, plan).db;
    var l := GetComments(w, pageId, NoFault).value;
    var id := db.comments.next;
    assert id in w.comments.rows && w.comments.rows[id].pageId == pageId;
    assert id in CommentIdsOf(l);
    var i :| 0 <= i < |l| && CommentIdsOf(l)[i] == id;
    assert l[i].commentId == id;
  }

  /** After `deleteAllComments` the page lists no comments. */
  lemma DeleteAllThenEmpty(db: Db, pageId: int)
    ensures GetComments(DeleteAllComments(db, pageId, NoFault), pageId, NoFault) == Returned([])
  {
  }
}

=== FILE: common.dfy ===
/** Value types shared by every part of the model. */
module Common {

  /** A value that may be SQL NULL / Java null. */
  datatype Option<+T> = None | Some(value: T)

  /** What a Java call produced: the value it returned, or an exception that escaped it. */
  datatype Outcome<+T> = Returned(value: T) | Threw

  /** A Java `byte`: signed, two's complement. */
  newtype Byte = b: int | -128 <= b < 128
}

=== FILE: file_data_manager.dfy ===
/** The blob store: the `file_data` table of content and checksum. */
module FileDataManager {
  import opened Common
  import opened Schema

  function Row(content: seq<Byte>, checksum: string, now: nat): FileDataRow {
    FileDataRow(content, checksum, now)
  }

  /**
   INSERT INTO file_data (content, checksum). Returns the generated id; throws
   when the row was not written or no key came back. Only `file_data` changes.
   */
  function InsertFileData(db: Db, content: seq<Byte>, checksum: string, now: nat, f: Fault): (r: Exec<int>)
    ensures r.result.Returned? <==> f == NoFault
    ensures r.result.Returned? ==>
      && r.result.value == db.fileData.next
      && r.db.fileData.rows == db.fileData.rows[r.result.value := Row(content, checksum, now)]
    ensures db.Wf() && r.result.Returned? ==> r.result.value !in db.fileData.rows
    ensures f == Error ==> r.db == db
    ensures f == NoGeneratedKey ==> r.db.fileData.rows == db.fileData.rows[db.fileData.next := Row(content, checksum, now)]
    ensures r.db == db.(fileData := r.db.fileData)
    ensures db.Wf() ==> r.db.Wf()
  {
    var (o, t) := InsertRow(db.fileData, Row(content, checksum, now), f);
    Exec(o, db.(fileData := t))
  }

  /** DELETE FROM file_data WHERE actual_data_id = ?; returns the number of rows deleted. */
  function DeleteFileData(db: Db, actualDataId: int, f: Fault): (r: Exec<int>)
    ensures r.result.Returned? <==> f == NoFault
    ensures r.result.Threw? ==> r.db == db
    ensures r.result.Returned? ==>
      && r.result.value == (if actualDataId in db.fileData.rows then 1 else 0)
      && r.db.fileData.rows.Keys == db.fileData.rows.Keys - {actualDataId}
      && (forall id :: id in r.db.fileData.rows ==> r.db.fileData.rows[id] == db.fileData.rows[id])
    ensures r.db == db.(fileData := r.db.fileData)
    ensures r.db.fileData.next == db.fileData.next
  {
    if f != NoFault then Exec(Threw, db)
    else
      var n := if actualDataId in db.fileData.rows then 1 else 0;
      Exec(Returned(n), db.(fileData := db.fileData.Remove(actualDataId)))
  }

  /**
   Storing the same content twice yields two ids, each holding its own copy:
   the checksum is recorded but never used to find an existing blob.
   */
  lemma NoDeduplication(db: Db, content: seq<Byte>, checksum: string, now: nat)
    requires db.Wf()
    ensures var first := InsertFileData(db, content, checksum, now, NoFault);
            var second := InsertFileData(first.db, content, checksum, now, NoFault);
            && first.result.Returned? && second.result.Returned?
            && first.result.value != second.result.value
            && first.result.value in second.db.fileData.rows
            && second.db.fileData.rows[first.result.value].content == content
            && second.db.fileData.rows[second.result.value].content == content
  {
  }
}

=== FILE: file_io.dfy ===
/**
 The file helper behind the editors: extension extraction, the download
 path fix-up, the guards in front of page and revision creation, and the
 blob lookup of a download. The file chooser, the dialogs and the disk are
 replaced by the values they would deliver.
 */
module FileIo {
  import opened Common
  import opened Schema
  import PageManager

  // ---------------------------------------------------------------- strings

  /** Java `lastIndexOf`: the last position of `c`, or -1. */
  function LastIndexOf(s: string, c: char): (r: int)
    ensures -1 <= r < |s|
    ensures r == -1 <==> c !in s
    ensures r >= 0 ==> s[r] == c && forall j :: r < j < |s| ==> s[j] != c
  {
    if s == [] then -1
    else if s[|s| - 1] == c then |s| - 1
    else LastIndexOf(s[..|s| - 1], c)
  }

  /** `getFileExtension`: the text after the last '.', or null when there is none or it is empty. */
  function GetFileExtension(name: string): (r: Option<string>)
    ensures r.Some? ==>
      && r.value != [] && '.' !in r.value && |r.value| < |name|
      && name[|name| - |r.value| - 1] == '.' && name[|name| - |r.value|..] == r.value
  {
    var t := LastIndexOf(name, '.');
    if t != -1 && t < |name| - 1 then Some(name[t + 1..]) else None
  }

  /** No extension exactly when the name has no '.' or ends in one. */
  lemma ExtensionAbsent(name: string)
    ensures GetFileExtension(name).None? <==> '.' !in name || name[|name| - 1] == '.'
  {
  }

  /** An extension is non-empty, has no '.', and the name is a stem, a '.', and the extension. */
  lemma ExtensionSplits(name: string)
    requires GetFileExtension(name).Some?
    ensures var e := GetFileExtension(name).value;
      && e != [] && '.' !in e
      && name == name[..LastIndexOf(name, '.')] + "." + e
  {
    var t := LastIndexOf(name, '.');
    var e := name[t + 1..];
    assert forall j :: 0 <= j < |e| ==> e[j] == name[t + 1 + j];
    assert name == name[..t] + [name[t]] + e;
  }

  predicate EndsWith(s: string, suffix: string) {
    |suffix| <= |s| && s[|s| - |suffix|..] == suffix
  }

  /** The fix-up in `selectDownloadPath`: append "." + extension unless the path already ends with it. */
  function FixDownloadPath(path: string, ext: string): (r: string)
    ensures EndsWith(r, "." + ext)
    ensures |path| <= |r| && r[..|path|] == path
  {
    if EndsWith(path, "." + ext) then path else path + "." + ext
  }

  lemma FixDownloadPathIdempotent(path: string, ext: string)
    ensures FixDownloadPath(FixDownloadPath(path, ext), ext) == FixDownloadPath(path, ext)
  {
  }

  /**
   `selectDownloadPath`: the path the content is written to, if any. Nothing
   is written when the page name has no extension or no path was chosen.
   */
  function SelectDownloadPath(pageName: string, chosen: Option<string>): (r: Option<string>)
    ensures GetFileExtension(pageName).None? || chosen.None? ==> r.None?
    ensures r.Some? ==>
      && GetFileExtension(pageName).Some? && chosen.Some?
      && EndsWith(r.value, "." + GetFileExtension(pageName).value)
      && |chosen.value| <= |r.value| && r.value[..|chosen.value|] == chosen.value
  {
    match GetFileExtension(pageName)
    case None => None
    case Some(ext) =>
      match chosen
      case None => None
      case Some(path) => Some(FixDownloadPath(path, ext))
  }

  // ---------------------------------------------------------------- trim

  /** Java `String.trim`: strip leading and trailing characters up to ' '. */
  function TrimStart(s: string): (r: string)
    ensures r == [] || r[0] > ' '
  {
    if s != [] && s[0] <= ' ' then TrimStart(s[1..]) else s
  }

  function TrimEnd(s: string): (r: string)
    ensures r == [] || r[|r| - 1] > ' '
  {
    if s != [] && s[|s| - 1] <= ' ' then TrimEnd(s[..|s| - 1]) else s
  }

  function Trim(s: string): string {
    TrimEnd(TrimStart(s))
  }

  predicate AllSpace(s: string) {
    forall i :: 0 <= i < |s| ==> s[i] <= ' '
  }

  lemma {:induction false} TrimStartEmpty(s: string)
    ensures TrimStart(s) == [] <==> AllSpace(s)
    decreases |s|
  {
    if s != [] && s[0] <= ' ' {
      TrimStartEmpty(s[1..]);
      assert forall i :: 1 <= i < |s| ==> s[i] == s[1..][i - 1];
    }
  }

  lemma {:induction false} TrimEndEmpty(s: string)
    ensures TrimEnd(s) == [] <==> AllSpace(s)
    decreases |s|
  {
    if s != [] && s[|s| - 1] <= ' ' {
      TrimEndEmpty(s[..|s| - 1]);
      assert forall i :: 0 <= i < |s| - 1 ==> s[i] == s[..|s| - 1][i];
    }
  }

  /** A message is blank after `trim` exactly when every character is at most ' '. */
  lemma TrimEmpty(s: string)
    ensures Trim(s) == [] <==> AllSpace(s)
  {
    TrimStartEmpty(s);
    TrimEndEmpty(TrimStart(s));
  }

  /** The commit-message guard: null (a cancelled dialog) or blank after trim. */
  predicate RejectedMessage(message: Option<string>) {
    message.None? || Trim(message.value) == []
  }

  // ---------------------------------------------------------------- upload

  /**
   The file named by the `FileIo` object's retained path, with what reading
   it delivers. The path is the last file the chooser approved; a later
   cancel does not clear it, so on a reused object a cancelled chooser still
   yields the earlier file. `NoFileChosen` means no file was ever approved
   on this object.
   */
  datatype FileChoice =
    | NoFileChosen
    | Unreadable(name: string)
    | Chosen(name: string, content: seq<Byte>, digest: seq<Byte>)

  /**
   `insertFileToPage`: without a readable chosen file, false; otherwise
   `makePage` under the file's name, and true exactly when it gave an id.
   The commit message is passed on unchecked.
   */
  function InsertFileToPage(
    db: Db, me: int, groupId: int, choice: FileChoice, message: Option<string>, now: nat, plan: Plan): (r: (bool, Db))
    ensures !choice.Chosen? ==> r == (false, db)
    ensures !PageManager.MakePageClean(plan) ==> r.1 == db
    ensures db.Wf() ==> (r.0 <==> choice.Chosen? && PageManager.MakePageClean(plan))
  {
    match choice
    case Chosen(name, content, digest) =>
      var (id, d) := PageManager.MakePage(db, me, groupId, name, content, digest, message, now, plan);
      (id != -1, d)
    case _ => (false, db)
  }

  /**
   `insertFileToRevision`: a missing file, a rejected message or a read
   error gives false and writes nothing; otherwise `insertRevision` runs and
   the result is true whatever it returned.
   */
  function InsertFileToRevision(
    db: Db, me: int, pageId: int, parentId: int, choice: FileChoice, message: Option<string>, now: nat,
    plan: Plan): (r: (bool, Db))
    ensures r.0 <==> choice.Chosen? && !RejectedMessage(message)
    ensures !r.0 ==> r.1 == db
    ensures r.0 ==> r.1 == PageManager.InsertRevision(
      db, me, pageId, parentId, choice.content, choice.digest, message, now, plan).1
  {
    if choice.NoFileChosen? || RejectedMessage(message) || choice.Unreadable? then (false, db)
    else
      var (_, d) := PageManager.InsertRevision(db, me, pageId, parentId, choice.content, choice.digest, message, now, plan);
      (true, d)
  }

  // ---------------------------------------------------------------- download

  /**
   `fileDownLoad` as written: it reads the blob whose id equals the revision
   id. The buffer keeps its previous content when the query fails or finds
   no row.
   */
  function FileDownLoad(db: Db, revisionId: int, previous: Option<seq<Byte>>, f: Fault): (r: Option<seq<Byte>>)
    ensures f != NoFault ==> r == previous
  {
    if f != NoFault || revisionId !in db.fileData.rows then previous
    else Some(db.fileData.rows[revisionId].content)
  }

  /** The download as evidently intended: follow the revision's `actual_data_id`. */
  function DownloadRevision(db: Db, revisionId: int, previous: Option<seq<Byte>>, f: Fault): (r: Option<seq<Byte>>)
    ensures f != NoFault ==> r == previous
  {
    if f != NoFault || revisionId !in db.revisions.rows then previous
    else
      var blob := db.revisions.rows[revisionId].actualDataId;
      if blob !in db.fileData.rows then previous else Some(db.fileData.rows[blob].content)
  }

  /** A revision written by `insertRevision` downloads back the content it was given. */
  lemma InsertRevisionThenDownload(
    db: Db, me: int, pageId: int, parent: int, content: seq<Byte>, digest: seq<Byte>,
    message: Option<string>, now: nat, plan: Plan, previous: Option<seq<Byte>>)
    requires db.Wf()
    requires PageManager.InsertRevision(db, me, pageId, parent, content, digest, message, now, plan).0 != -1
    ensures var r := PageManager.InsertRevision(db, me, pageId, parent, content, digest, message, now, plan);
      DownloadRevision(r.1, r.0, previous, NoFault) == Some(content)
  {
  }

  /** The property `fileDownLoad` relies on: blob and revision ids advance together and match. */
  predicate LockStep(db: Db) {
    && db.fileData.next == db.revisions.next
    && forall id :: id in db.revisions.rows ==> db.revisions.rows[id].actualDataId == id
  }

  /** Under the lock-step property the lookup as written and the intended one agree. */
  lemma LockStepDownloadsAgree(db: Db, revisionId: int, previous: Option<seq<Byte>>, f: Fault)
    requires LockStep(db) && revisionId in db.revisions.rows
    ensures FileDownLoad(db, revisionId, previous, f) == DownloadRevision(db, revisionId, previous, f)
  {
  }

  lemma MakePagePreservesLockStep(
    db: Db, me: int, groupId: int, pageName: string, content: seq<Byte>, digest: seq<Byte>,
    message: Option<string>, now: nat, plan: Plan)
    requires db.Wf() && LockStep(db)
    ensures LockStep(PageManager.MakePage(db, me, groupId, pageName, content, digest, message, now, plan).1)
  {
  }

  /**
   A plan under which `insertRevision` never leaves a blob without its
   revision: either the blob INSERT writes nothing, or the revision INSERT
   writes its row too.
   */
  predicate NoOrphanBlob(plan: Plan) {
    !Ok(plan, Connect) || At(plan, InsertFileDataRow) == Error
    || (Ok(plan, InsertFileDataRow) && At(plan, InsertRevisionRow) != Error)
  }

  lemma InsertRevisionPreservesLockStep(
    db: Db, me: int, pageId: int, parent: int, content: seq<Byte>, digest: seq<Byte>,
    message: Option<string>, now: nat, plan: Plan)
    requires db.Wf() && LockStep(db) && NoOrphanBlob(plan)
    ensures LockStep(PageManager.InsertRevision(db, me, pageId, parent, content, digest, message, now, plan).1)
  {
  }

  lemma DeletePagePreservesLockStep(db: Db, pageId: int, plan: Plan)
    requires LockStep(db)
    ensures LockStep(PageManager.DeletePage(db, pageId, plan))
  {
  }

  /**
   The lock step breaks: a revision upload whose revision INSERT fails
   leaves blob 1 behind, the next upload stores its content as blob 2 under
   revision 1, and the download as written returns the orphan's content.
   */
  lemma OrphanBlobBreaksDownload()
    ensures
      var page := PageRow(1, "a.txt", 0, None);
      var db0 := Db(Table(map[1 := page], 2), Table(map[], 1), Table(map[], 1),
                    Table(map[], 1), Table(map[], 1), Table(map[], 1), map[]);
      var first := PageManager.InsertRevision(db0, 7, 1, 0, [1], [], Some("first"), 1, map[InsertRevisionRow := Error]);
      var second := PageManager.InsertRevision(first.1, 7, 1, 0, [2], [], Some("second"), 2, map[]);
      && first.0 == -1 && second.0 == 1
      && LockStep(db0) && !LockStep(second.1)
      && FileDownLoad(second.1, 1, None, NoFault) == Some([1])
      && DownloadRevision(second.1, 1, None, NoFault) == Some([2])
  {
    var page := PageRow(1, "a.txt", 0, None);
    var db0 := Db(Table(map[1 := page], 2), Table(map[], 1), Table(map[], 1),
                  Table(map[], 1), Table(map[], 1), Table(map[], 1), map[]);
    var first := PageManager.InsertRevision(db0, 7, 1, 0, [1], [], Some("first"), 1, map[InsertRevisionRow := Error]);
    assert first.1 == db0.(fileData := Table(map[1 := FileDataRow([1], [], 1)], 2));
    var second := PageManager.InsertRevision(first.1, 7, 1, 0, [2], [], Some("second"), 2, map[]);
    assert second.1.revisions.rows[1].actualDataId == 2;
    assert second.1.fileData.rows[2].content == [2];
  }
}

=== FILE: group_manager.dfy ===
/**
 Groups and memberships: group creation with a random join key, joining by
 key, and creator-only deletion. `me` is the logged-in user the manager was
 built for; the random source is a caller-supplied draw per attempt and
 position.
 */
module GroupManager {
  import opened Common
  import opened Schema
  import Listing

  const JoinKeyLength: nat := 10
  const MaxKeyGenerationRetries: nat := 10
  const Characters: string := "ABCDEFGHIJKLMNOPQRSTUVWXYZabcdefghijklmnopqrstuvwxyz0123456789"
  const AdminRole: string := "admin"
  const UserRole: string := "user"

  /** An index into `Characters`, as `nextInt(62)` returns. */
  type Draw = x: int | 0 <= x < 62

  /** The random source: the index drawn at a position of an attempt. */
  type Random = (nat, nat) -> Draw

  predicate IsJoinKey(key: string) {
    |key| == JoinKeyLength && forall i :: 0 <= i < |key| ==> key[i] in Characters
  }

  /** The key built in `attempt`: one drawn character per position. */
  function Candidate(random: Random, attempt: nat): (key: string)
    ensures IsJoinKey(key)
  {
    seq(JoinKeyLength, i requires 0 <= i < JoinKeyLength => Characters[random(attempt, i)])
  }

  /** Ids of the groups whose join key is `key`. */
  function KeyOwners(db: Db, key: string): set<int> {
    set id | id in db.groups.rows && db.groups.rows[id].joinKey == key
  }

  predicate KeyInUse(db: Db, key: string) {
    KeyOwners(db, key) != {}
  }

  /**
   The key-generation loop from `attempt` on: each attempt builds a key and
   counts the groups using it; the first unused key is returned. A database
   error, or ten keys all in use, ends in a RuntimeException.
   */
  function TryKeys(db: Db, random: Random, plan: Plan, attempt: nat): (r: Outcome<string>)
    requires attempt <= MaxKeyGenerationRetries
    ensures r.Returned? ==> !KeyInUse(db, r.value)
    decreases MaxKeyGenerationRetries - attempt
  {
    if attempt == MaxKeyGenerationRetries then Threw
    else if !Ok(plan, Connect) || !Ok(plan, SelectKeyCount(attempt)) then Threw
    else
      var key := Candidate(random, attempt);
      if !KeyInUse(db, key) then Returned(key)
      else TryKeys(db, random, plan, attempt + 1)
  }

  /** A generated key is the first candidate not in use, and it is a well-formed key. */
  lemma {:induction false} TryKeysFindsFirstFree(db: Db, random: Random, plan: Plan, attempt: nat) returns (a: nat)
    requires attempt <= MaxKeyGenerationRetries
    requires TryKeys(db, random, plan, attempt).Returned?
    ensures attempt <= a < MaxKeyGenerationRetries
    ensures TryKeys(db, random, plan, attempt).value == Candidate(random, a)
    ensures IsJoinKey(TryKeys(db, random, plan, attempt).value)
    ensures forall b :: attempt <= b < a ==> KeyInUse(db, Candidate(random, b))
    decreases MaxKeyGenerationRetries - attempt
  {
    if KeyInUse(db, Candidate(random, attempt)) {
      a := TryKeysFindsFirstFree(db, random, plan, attempt + 1);
    } else {
      a := attempt;
    }
  }

  /** Without database errors, key generation fails exactly when all ten candidates are taken. */
  lemma {:induction false} TryKeysFailsOnlyOnCollisions(db: Db, random: Random, plan: Plan, attempt: nat)
    requires attempt <= MaxKeyGenerationRetries
    requires Ok(plan, Connect)
    requires forall a :: attempt <= a < MaxKeyGenerationRetries ==> Ok(plan, SelectKeyCount(a))
    ensures TryKeys(db, random, plan, attempt).Threw? <==>
      forall a :: attempt <= a < MaxKeyGenerationRetries ==> KeyInUse(db, Candidate(random, a))
    decreases MaxKeyGenerationRetries - attempt
  {
    if attempt < MaxKeyGenerationRetries && KeyInUse(db, Candidate(random, attempt)) {
      TryKeysFailsOnlyOnCollisions(db, random, plan, attempt + 1);
    }
  }

  /** `generateUniqueJoinKey`: the loop itself, with the attempt counter and the uniqueness flag. */
  method GenerateUniqueJoinKey(db: Db, random: Random, plan: Plan) returns (r: Outcome<string>)
    ensures r == TryKeys(db, random, plan, 0)
    ensures r.Returned? ==> IsJoinKey(r.value) && !KeyInUse(db, r.value)
  {
    var key: string := [];
    var isUnique := false;
    var attempts: nat := 0;
    while !isUnique && attempts < MaxKeyGenerationRetries
      invariant attempts <= MaxKeyGenerationRetries
      invariant isUnique ==> 0 < attempts && TryKeys(db, random, plan, 0) == Returned(key)
      invariant !isUnique ==> TryKeys(db, random, plan, 0) == TryKeys(db, random, plan, attempts)
      decreases MaxKeyGenerationRetries - attempts, if isUnique then 0 else 1
    {
      key := Candidate(random, attempts);
      if !Ok(plan, Connect) || !Ok(plan, SelectKeyCount(attempts)) {
        return Threw;
      }
      if !KeyInUse(db, key) {
        isUnique := true;
      }
      attempts := attempts + 1;
    }
    if !isUnique {
      return Threw;
    }
    return Returned(key);
  }

  // ---------------------------------------------------------------- memberships

  /** Ids of the memberships of `userId` in `groupId`. */
  function MembershipsOf(db: Db, groupId: int, userId: int): set<int> {
    set id | id in db.memberships.rows && db.memberships.rows[id].groupId == groupId
                                       && db.memberships.rows[id].userId == userId
  }

  predicate IsMember(db: Db, groupId: int, userId: int) {
    MembershipsOf(db, groupId, userId) != {}
  }

  /**
   Count existing memberships of the pair; insert one with `role` only when
   there is none. Every failure, and an existing membership, gives false;
   an INSERT whose key did not come back still leaves its row.
   */
  function MakeGroupMembership(db: Db, groupId: int, userId: int, role: string, plan: Plan): (r: (bool, Db))
    ensures r.0 <==> Ok(plan, Connect) && Ok(plan, SelectMembershipCount) && !IsMember(db, groupId, userId)
                     && Ok(plan, InsertMembershipRow)
    ensures IsMember(db, groupId, userId) ==> r.1 == db
    ensures r.1 == db || r.1 == db.(memberships := db.memberships.Add(MembershipRow(groupId, userId, role)))
    ensures r.0 ==> r.1 == db.(memberships := db.memberships.Add(MembershipRow(groupId, userId, role)))
  {
    if !Ok(plan, Connect) || !Ok(plan, SelectMembershipCount) || IsMember(db, groupId, userId) then (false, db)
    else
      var (o, t) := InsertRow(db.memberships, MembershipRow(groupId, userId, role), At(plan, InsertMembershipRow));
      (o.Returned?, db.(memberships := t))
  }

  // ---------------------------------------------------------------- lookups by key

  /**
   The group a lookup by join key reads first. Join keys are generated
   unique; should two groups share one, the model reads the smaller id.
   */
  function GroupByKey(db: Db, key: string): (r: Option<int>)
    ensures r.None? <==> !KeyInUse(db, key)
    ensures r.Some? ==> r.value in KeyOwners(db, key) && forall id :: id in KeyOwners(db, key) ==> r.value <= id
  {
    var ids := Listing.OrderBy(KeyOwners(db, key), k => 0);
    if ids == [] then None
    else
      assert forall id :: id in KeyOwners(db, key) ==> id == ids[0] || Listing.Before(k => 0, ids[0], id);
      Some(ids[0])
  }

  /** SELECT group_id FROM group_data WHERE join_key = ?; -1 when absent or on any error. */
  function GetGroupIdByJoinKey(db: Db, key: string, plan: Plan): (r: int)
    ensures !KeyInUse(db, key) ==> r == -1
    ensures Ok(plan, Connect) && Ok(plan, SelectGroupIdByKey) && KeyInUse(db, key) ==>
      r in KeyOwners(db, key) && forall id :: id in KeyOwners(db, key) ==> r <= id
    ensures !Ok(plan, Connect) || !Ok(plan, SelectGroupIdByKey) ==> r == -1
  {
    if !Ok(plan, Connect) || !Ok(plan, SelectGroupIdByKey) then -1
    else match GroupByKey(db, key)
      case None => -1
      case Some(id) => id
  }

  // ---------------------------------------------------------------- operations

  /**
   `joinGroup`: -1 when the key lookup fails or finds no group; otherwise the
   manager's own user (not the `userId` argument) is added as a "user"
   member, giving 1, and any failure to add, including an existing
   membership, gives -2.
   */
  function JoinGroup(db: Db, joinKey: string, userId: int, me: int, plan: Plan): (r: (int, Db))
    ensures r.0 == -1 || r.0 == -2 || r.0 == 1
    ensures r.0 == -1 <==> !Ok(plan, SelectGroupByKey) || GroupByKey(db, joinKey) == None || GroupByKey(db, joinKey) == Some(-1)
    ensures r.0 == -1 ==> r.1 == db
    ensures r.0 == 1 ==> r.1 == db.(memberships := db.memberships.Add(MembershipRow(GroupByKey(db, joinKey).value, me, UserRole)))
    ensures r.0 != -1 ==> (r.0 == 1 <==> MakeGroupMembership(db, GroupByKey(db, joinKey).value, me, UserRole, plan).0)
    ensures r.0 == -2 ==> r.1 == MakeGroupMembership(db, GroupByKey(db, joinKey).value, me, UserRole, plan).1
  {
    var target := if !Ok(plan, SelectGroupByKey) then -1
                  else match GroupByKey(db, joinKey) case None => -1 case Some(id) => id;
    if target == -1 then (-1, db)
    else
      var (added, d) := MakeGroupMembership(db, target, me, UserRole, plan);
      if !added then (-2, d) else (1, d)
  }

  /**
   `makeGroup`: generate a key, insert the group with `me` as creator, then
   give `me` an "admin" membership, whose outcome is ignored. -1 on an SQL
   error; a failed key generation escapes as an exception.
   */
  function MakeGroup(db: Db, groupName: string, me: int, now: nat, random: Random, plan: Plan): (r: Exec<int>)
    ensures r.result.Threw? <==> Ok(plan, Connect) && TryKeys(db, random, plan, 0).Threw?
    ensures r.result.Threw? ==> r.db == db
    ensures db.groups.Wf() ==> (r.result.Returned? && r.result.value != -1 <==>
      Ok(plan, Connect) && TryKeys(db, random, plan, 0).Returned? && Ok(plan, InsertGroupRow))
    ensures db.groups.Wf() && r.result == Returned(-1) ==> r.db.memberships == db.memberships
    ensures db.groups.Wf() && r.result.Returned? && r.result.value != -1 ==>
      && r.result.value == db.groups.next
      && var key := TryKeys(db, random, plan, 0).value;
         && !KeyInUse(db, key)
         && r.db.groups == db.groups.Add(GroupRow(groupName, key, me, now))
    ensures At(plan, InsertGroupRow) == Error ==> r.db == db
    ensures Ok(plan, Connect) && At(plan, InsertGroupRow) == NoGeneratedKey && TryKeys(db, random, plan, 0).Returned? ==>
      && r.result == Returned(-1)
      && r.db == db.(groups := db.groups.Add(GroupRow(groupName, TryKeys(db, random, plan, 0).value, me, now)))
    ensures r.db == db.(groups := r.db.groups, memberships := r.db.memberships)
  {
    if !Ok(plan, Connect) then Exec(Returned(-1), db)
    else
      var key := TryKeys(db, random, plan, 0);
      if key.Threw? then Exec(Threw, db)
      else
        var (o, t) := InsertRow(db.groups, GroupRow(groupName, key.value, me, now), At(plan, InsertGroupRow));
        var d := db.(groups := t);
        if o.Threw? then Exec(Returned(-1), d)
        else
          var (_, d2) := MakeGroupMembership(d, o.value, me, AdminRole, plan);
          Exec(Returned(o.value), d2)
  }

  /** Ids of the memberships of a group. */
  function MembersOf(db: Db, groupId: int): set<int> {
    set id | id in db.memberships.rows && db.memberships.rows[id].groupId == groupId
  }

  /**
   `deleteData`: delete the group's memberships, then the group row, each on
   its own auto-committed connection. A failure of the second DELETE leaves
   the first one done.
   */
  function DeleteData(db: Db, groupId: int, plan: Plan): (r: Exec<()>)
    ensures r.result.Returned? <==> Ok(plan, DeleteMemberships) && Ok(plan, DeleteGroupRow)
    ensures !Ok(plan, DeleteMemberships) ==> r.db == db
    ensures Ok(plan, DeleteMemberships) ==>
      r.db.memberships == db.memberships.RemoveAll(MembersOf(db, groupId))
    ensures r.result.Returned? ==> r.db.groups == db.groups.Remove(groupId)
    ensures r.result.Threw? ==> r.db.groups == db.groups
    ensures r.db == db.(groups := r.db.groups, memberships := r.db.memberships)
  {
    if !Ok(plan, DeleteMemberships) then Exec(Threw, db)
    else
      var d := db.(memberships := db.memberships.RemoveAll(MembersOf(db, groupId)));
      if !Ok(plan, DeleteGroupRow) then Exec(Threw, d)
      else Exec(Returned(()), d.(groups := d.groups.Remove(groupId)))
  }

  /**
   `deleteGroup`: only the creator may delete. A missing group, another
   user, or an SQL error gives false; pages and comments of the group are
   not touched.
   */
  function DeleteGroup(db: Db, groupId: int, me: int, plan: Plan): (r: (bool, Db))
    ensures r.0 <==> && Ok(plan, Connect) && Ok(plan, SelectGroupCreator) && groupId in db.groups.rows
                     && db.groups.rows[groupId].createdByUserId == me
                     && Ok(plan, DeleteMemberships) && Ok(plan, DeleteGroupRow)
    ensures groupId !in db.groups.rows ==> r.1 == db
    ensures groupId in db.groups.rows && db.groups.rows[groupId].createdByUserId != me ==> r.1 == db
    ensures r.0 ==> r.1 == db.(groups := db.groups.Remove(groupId),
                               memberships := db.memberships.RemoveAll(MembersOf(db, groupId)))
  {
    if !Ok(plan, Connect) || !Ok(plan, SelectGroupCreator) || groupId !in db.groups.rows then (false, db)
    else if db.groups.rows[groupId].createdByUserId != me then (false, db)
    else
      var d := DeleteData(db, groupId, plan);
      (d.result.Returned?, d.db)
  }

  // ---------------------------------------------------------------- properties

  /** Every membership names a group id the counter has already handed out. */
  predicate MembershipsBehindCounter(db: Db) {
    forall id :: id in db.memberships.rows ==> db.memberships.rows[id].groupId < db.groups.next
  }

  /** Every statement of `makeGroup` succeeds. */
  predicate MakeGroupClean(db: Db, random: Random, plan: Plan) {
    && Ok(plan, Connect) && TryKeys(db, random, plan, 0).Returned? && Ok(plan, InsertGroupRow)
    && Ok(plan, SelectMembershipCount) && Ok(plan, InsertMembershipRow)
  }

  /**
   A clean `makeGroup` adds one group created by `me` under a fresh key and
   makes `me` its admin; looking the key up afterwards finds that group.
   */
  lemma MakeGroupThenLookUp(db: Db, groupName: string, me: int, now: nat, random: Random, plan: Plan, lookup: Plan)
    requires db.Wf() && MembershipsBehindCounter(db)
    requires MakeGroupClean(db, random, plan)
    requires Ok(lookup, Connect) && Ok(lookup, SelectGroupIdByKey)
    ensures var r := MakeGroup(db, groupName, me, now, random, plan);
      var key := TryKeys(db, random, plan, 0).value;
      && r.result == Returned(db.groups.next)
      && r.db.memberships == db.memberships.Add(MembershipRow(db.groups.next, me, AdminRole))
      && GetGroupIdByJoinKey(r.db, key, lookup) == db.groups.next
      && IsMember(r.db, db.groups.next, me)
  {
    var r := MakeGroup(db, groupName, me, now, random, plan);
    var key := TryKeys(db, random, plan, 0).value;
    var id := db.groups.next;
    var d := db.(groups := db.groups.Add(GroupRow(groupName, key, me, now)));
    assert !IsMember(d, id, me) by {
      if MembershipsOf(d, id, me) != {} {
        Listing.Inhabited(MembershipsOf(d, id, me));
        assert false;
      }
    }
    assert KeyOwners(r.db, key) == {id} by {
      assert forall g :: g in KeyOwners(r.db, key) && g != id ==> g in KeyOwners(db, key);
    }
    var m := db.memberships.next;
    assert m in MembershipsOf(r.db, id, me);
  }

  /** Joining succeeds at most once: a second join with the same key reports -2 and changes nothing. */
  lemma JoinTwice(db: Db, joinKey: string, userId: int, me: int, plan: Plan)
    requires JoinGroup(db, joinKey, userId, me, plan).0 == 1
    ensures var d := JoinGroup(db, joinKey, userId, me, plan).1;
      JoinGroup(d, joinKey, userId, me, plan) == (-2, d)
  {
    var g := GroupByKey(db, joinKey).value;
    var d := JoinGroup(db, joinKey, userId, me, plan).1;
    assert KeyOwners(d, joinKey) == KeyOwners(db, joinKey);
    assert db.memberships.next in MembershipsOf(d, g, me);
  }

  /** After a successful `deleteGroup` the group and all its memberships are gone. */
  lemma DeleteGroupRemovesMembers(db: Db, groupId: int, me: int, plan: Plan, userId: int)
    requires DeleteGroup(db, groupId, me, plan).0
    ensures var d := DeleteGroup(db, groupId, me, plan).1;
      groupId !in d.groups.rows && !IsMember(d, groupId, userId)
      && forall id :: id in db.memberships.rows && db.memberships.rows[id].groupId != groupId ==>
           id in d.memberships.rows && d.memberships.rows[id] == db.memberships.rows[id]
  {
  }
}

=== FILE: listing.dfy ===
/**
 Result-set order. A SELECT without ORDER BY has no guaranteed order, and one
 ordered by a timestamp leaves ties open; the model fixes both by listing row
 ids by a key and then by ascending id.
 */
module Listing {

  /** `a` is listed no later than `b`: smaller key first, ties by smaller id. */
  predicate Before(key: int -> int, a: int, b: int) {
    key(a) < key(b) || (key(a) == key(b) && a <= b)
  }

  predicate IsLeast(key: int -> int, m: int, ids: set<int>) {
    m in ids && forall j :: j in ids ==> Before(key, m, j)
  }

  /** A set that is not empty has a member. */
  lemma Inhabited(ids: set<int>)
    requires ids != {}
    ensures exists y :: y in ids
  {
    if forall y :: y !in ids {
      assert false;
    }
  }

  /** Every non-empty finite set of ids has a first element. */
  lemma {:induction false} LeastExists(key: int -> int, ids: set<int>)
    requires ids != {}
    ensures exists m :: IsLeast(key, m, ids)
    decreases |ids|
  {
    Inhabited(ids);
    var x :| x in ids;
    var rest := ids - {x};
    if rest == {} {
      assert ids == {x};
      assert IsLeast(key, x, ids);
    } else {
      LeastExists(key, rest);
      var m :| IsLeast(key, m, rest);
      if Before(key, x, m) {
        forall j | j in ids
          ensures Before(key, x, j)
        {
          if j != x {
            assert j in rest;
            assert Before(key, m, j);
          }
        }
        assert IsLeast(key, x, ids);
      } else {
        assert IsLeast(key, m, ids);
      }
    }
  }

  /** The ids of `ids` as a list without repeats, in `Before` order. */
  function OrderBy(ids: set<int>, key: int -> int): (r: seq<int>)
    ensures |r| == |ids|
    ensures forall i :: 0 <= i < |r| ==> r[i] in ids
    ensures forall x :: x in ids ==> x in r
    ensures forall i, j :: 0 <= i < j < |r| ==> r[i] != r[j] && Before(key, r[i], r[j])
    decreases |ids|
  {
    if ids == {} then []
    else
      LeastExists(key, ids);
      var m :| IsLeast(key, m, ids);
      [m] + OrderBy(ids - {m}, key)
  }
}

=== FILE: page_controller.dfy ===
/**
 The page screen's controller: list getters that answer null when no
 connection can be had, author-only comment deletion, and page deletion
 restricted to the group's creator.
 */
module PageController {
  import opened Common
  import opened Schema
  import PageManager
  import RevisionManager
  import CommentManager

  /** `getAllPages_con`: null (None) without a connection; `searchPage` itself swallows query errors. */
  function GetAllPagesCon(db: Db, groupId: int, plan: Plan): (r: Option<seq<Page>>)
    ensures r.None? <==> !Ok(plan, Connect)
    ensures r.Some? ==> r.value == PageManager.SearchPage(db, groupId, At(plan, SelectPages))
  {
    if !Ok(plan, Connect) then None else Some(PageManager.SearchPage(db, groupId, At(plan, SelectPages)))
  }

  /** `getAllRevisions_con`: null on any SQL failure, the page's revisions otherwise. */
  function GetAllRevisionsCon(db: Db, pageId: int, plan: Plan): (r: Option<seq<Revision>>)
    ensures r.None? <==> !Ok(plan, Connect) || !Ok(plan, SelectRevisions)
    ensures r.Some? ==> Returned(r.value) == RevisionManager.GetRevisionsByPageId(db, pageId, NoFault)
  {
    if !Ok(plan, Connect) then None
    else match RevisionManager.GetRevisionsByPageId(db, pageId, At(plan, SelectRevisions))
      case Threw => None
      case Returned(revs) => Some(revs)
  }

  /** `getAllComments_con`: null on any SQL failure, the page's comments otherwise. */
  function GetAllCommentsCon(db: Db, pageId: int, plan: Plan): (r: Option<seq<Comment>>)
    ensures r.None? <==> !Ok(plan, Connect) || !Ok(plan, SelectComments)
    ensures r.Some? ==> Returned(r.value) == CommentManager.GetComments(db, pageId, NoFault)
  {
    if !Ok(plan, Connect) then None
    else match CommentManager.GetComments(db, pageId, At(plan, SelectComments))
      case Threw => None
      case Returned(cs) => Some(cs)
  }

  /** `deleteComment_con`: the author-only delete, with every exception swallowed. */
  function DeleteCommentCon(db: Db, commentId: int, me: int, plan: Plan): (r: Db)
    ensures r == db || (commentId in db.comments.rows && db.comments.rows[commentId].commentedByUserId == me
                        && r == db.(comments := db.comments.Remove(commentId)))
    ensures Ok(plan, Connect) && Ok(plan, SelectCommentAuthor(commentId)) && Ok(plan, DeleteCommentRow(commentId))
            && commentId in db.comments.rows && db.comments.rows[commentId].commentedByUserId == me
            ==> commentId !in r.comments.rows
  {
    if !Ok(plan, Connect) then db else CommentManager.DeleteComment(db, commentId, me, plan).db
  }

  /** The loop over the comment list read before the page was deleted. */
  function DeleteEachComment(db: Db, cs: seq<Comment>, me: int, plan: Plan): (r: Db)
    decreases |cs|
  {
    if cs == [] then db else DeleteEachComment(DeleteCommentCon(db, cs[0].commentId, me, plan), cs[1..], me, plan)
  }

  /**
   The loop deletes only comments written by `me`, touches no other table,
   and removes each listed comment of `me` when its statements succeed.
   */
  lemma {:induction false} DeleteEachCommentEffect(db: Db, cs: seq<Comment>, me: int, plan: Plan)
    ensures var r := DeleteEachComment(db, cs, me, plan);
      && r == db.(comments := r.comments)
      && r.comments.next == db.comments.next
      && (forall id :: id in r.comments.rows ==> id in db.comments.rows && r.comments.rows[id] == db.comments.rows[id])
      && (forall id :: id in db.comments.rows && db.comments.rows[id].commentedByUserId != me ==> id in r.comments.rows)
      && (forall i :: 0 <= i < |cs| && Ok(plan, Connect) && Ok(plan, SelectCommentAuthor(cs[i].commentId))
                      && Ok(plan, DeleteCommentRow(cs[i].commentId))
                      && cs[i].commentId in db.comments.rows
                      && db.comments.rows[cs[i].commentId].commentedByUserId == me
                      ==> cs[i].commentId !in r.comments.rows)
    decreases |cs|
  {
    if cs != [] {
      var d := DeleteCommentCon(db, cs[0].commentId, me, plan);
      DeleteEachCommentEffect(d, cs[1..], me, plan);
      forall i | 0 < i < |cs| ensures cs[i] == cs[1..][i - 1] { }
    }
  }

  /**
   `deletePage_con`: read the page's comments, refuse unless `me` created
   the group, delete the page, then delete each listed comment through the
   author-only rule. True whether or not the deletions succeeded; a comment
   list that came back null makes the loop throw after the page delete.
   */
  function DeletePageCon(db: Db, pageId: int, me: int, groupCreator: int, plan: Plan): (r: Exec<bool>)
    ensures me != groupCreator ==> r == Exec(Returned(false), db)
    ensures me == groupCreator ==>
      (r.result.Threw? <==> GetAllCommentsCon(db, pageId, plan).None?)
    ensures r.result.Returned? && me == groupCreator ==> r.result.value
  {
    var comments := GetAllCommentsCon(db, pageId, plan);
    if me != groupCreator then Exec(Returned(false), db)
    else
      var d := PageManager.DeletePage(db, pageId, plan);
      match comments
      case None => Exec(Threw, d)
      case Some(cs) => Exec(Returned(true), DeleteEachComment(d, cs, me, plan))
  }

  /**
   The creator's page delete leaves every comment written by someone else,
   removes only the creator's own comments, and applies the page delete's
   all-or-nothing effect to pages, revisions and blobs.
   */
  lemma DeletePageConKeepsOthersComments(db: Db, pageId: int, me: int, plan: Plan)
    ensures var r := DeletePageCon(db, pageId, me, me, plan).db;
      var p := PageManager.DeletePage(db, pageId, plan);
      && r == p.(comments := r.comments)
      && (p == db || p == PageManager.Cascade(db, pageId))
      && (forall id :: id in db.comments.rows && db.comments.rows[id].commentedByUserId != me ==>
            id in r.comments.rows && r.comments.rows[id] == db.comments.rows[id])
      && (forall id :: id in r.comments.rows ==> id in db.comments.rows)
  {
    var comments := GetAllCommentsCon(db, pageId, plan);
    var p := PageManager.DeletePage(db, pageId, plan);
    if comments.Some? {
      DeleteEachCommentEffect(p, comments.value, me, plan);
    }
  }

  /**
   With every statement succeeding, the creator's page delete removes the
   page's comments written by the creator, and returns true even when the
   page delete itself rolled back.
   */
  lemma DeletePageConRemovesOwnComments(db: Db, pageId: int, me: int, plan: Plan, commentId: int)
    requires Ok(plan, Connect) && Ok(plan, SelectComments)
    requires Ok(plan, SelectCommentAuthor(commentId)) && Ok(plan, DeleteCommentRow(commentId))
    requires commentId in db.comments.rows
    requires db.comments.rows[commentId].pageId == pageId && db.comments.rows[commentId].commentedByUserId == me
    ensures DeletePageCon(db, pageId, me, me, plan).result == Returned(true)
    ensures commentId !in DeletePageCon(db, pageId, me, me, plan).db.comments.rows
  {
    var cs := GetAllCommentsCon(db, pageId, plan).value;
    var p := PageManager.DeletePage(db, pageId, plan);
    assert commentId in CommentManager.CommentIdsOf(cs);
    var i :| 0 <= i < |cs| && CommentManager.CommentIdsOf(cs)[i] == commentId;
    assert cs[i].commentId == commentId;
    assert p.comments == db.comments;
    DeleteEachCommentEffect(p, cs, me, plan);
  }
}

=== FILE: page_lifecycle.dfy ===
/**
 Properties of the page registry as a whole: what a committed `makePage`,
 `insertRevision` and `deletePage` leave behind, how the latest_revision_id is
 read back, and the store invariant that every page points at one of its
 own revisions.
 */
module PageLifecycle {
  import opened Common
  import opened Schema
  import Checksum
  import RevisionManager
  import PageManager

  /**
   Every page has a latest revision, and that revision exists and belongs
   to the page.
   */
  predicate Consistent(db: Db) {
    && db.Wf()
    && forall p :: p in db.pages.rows ==>
         && db.pages.rows[p].latestRevisionId.Some?
         && db.pages.rows[p].latestRevisionId.value in db.revisions.rows
         && db.revisions.rows[db.pages.rows[p].latestRevisionId.value].pageId == p
  }

  // ---------------------------------------------------------------- makePage

  /**
   A committed `makePage` adds exactly one page, one blob holding the content
   under its hex checksum, and one root revision by the user pointing at that
   blob; the page's latest_revision_id names that revision. Nothing else changes.
   */
  lemma MakePageCommits(
    db: Db, userId: int, groupId: int, pageName: string, content: seq<Byte>, digest: seq<Byte>,
    message: Option<string>, now: nat, plan: Plan)
    requires db.Wf() && PageManager.MakePageClean(plan)
    ensures var r := PageManager.MakePage(db, userId, groupId, pageName, content, digest, message, now, plan);
      var pid, rid, bid := db.pages.next, db.revisions.next, db.fileData.next;
      && r.0 == pid
      && pid !in db.pages.rows && rid !in db.revisions.rows && bid !in db.fileData.rows
      && r.1 == db.(
           pages := db.pages.Add(PageRow(groupId, pageName, now, Some(rid))),
           revisions := db.revisions.Add(RevisionRow(pid, userId, None, message, bid, now)),
           fileData := db.fileData.Add(FileDataRow(content, Checksum.Hex(digest), now)))
  {
  }

  lemma MakePagePreservesConsistency(
    db: Db, userId: int, groupId: int, pageName: string, content: seq<Byte>, digest: seq<Byte>,
    message: Option<string>, now: nat, plan: Plan)
    requires Consistent(db)
    ensures Consistent(PageManager.MakePage(db, userId, groupId, pageName, content, digest, message, now, plan).1)
  {
    if PageManager.MakePageClean(plan) {
      MakePageCommits(db, userId, groupId, pageName, content, digest, message, now, plan);
    }
  }

  /** A committed page shows up in its group's page list. */
  lemma MakePageIsListed(
    db: Db, userId: int, groupId: int, pageName: string, content: seq<Byte>, digest: seq<Byte>,
    message: Option<string>, now: nat, plan: Plan)
    requires db.Wf() && PageManager.MakePageClean(plan)
    ensures var r := PageManager.MakePage(db, userId, groupId, pageName, content, digest, message, now, plan);
      r.0 in PageManager.PageIdsOf(PageManager.SearchPage(r.1, groupId, NoFault))
  {
    MakePageCommits(db, userId, groupId, pageName, content, digest, message, now, plan);
  }

  // ---------------------------------------------------------------- latest_revision_id

  /**
   Reading latest_revision_id after a successful update gives the value written,
   and leaves every other page's reading as it was.
   */
  lemma LatestAfterUpdate(db: Db, pageId: int, latest: int, f: Fault, plan: Plan, other: int)
    requires PageManager.UpdatePageLatestRevision(db, pageId, latest, f).result.Returned?
    requires Ok(plan, Connect) && Ok(plan, SelectLatest)
    requires other != pageId
    ensures var u := PageManager.UpdatePageLatestRevision(db, pageId, latest, f).db;
      && PageManager.GetLatestRevisionId(u, pageId, plan) == latest
      && PageManager.GetLatestRevisionId(u, other, plan) == PageManager.GetLatestRevisionId(db, other, plan)
  {
  }

  /** In a consistent store the latest_revision_id read back is one of the page's own revisions. */
  lemma LatestIsOwnRevision(db: Db, pageId: int, plan: Plan)
    requires Consistent(db)
    requires pageId in db.pages.rows && Ok(plan, Connect) && Ok(plan, SelectLatest)
    ensures var r := PageManager.GetLatestRevisionId(db, pageId, plan);
      r in db.revisions.rows && db.revisions.rows[r].pageId == pageId
  {
  }

  // ---------------------------------------------------------------- insertRevision

  /**
   A fully successful `insertRevision` adds a blob and a revision naming the
   given parent, and moves the page's latest_revision_id to the new revision.
   */
  lemma InsertRevisionAppends(
    db: Db, userId: int, pageId: int, parent: int, content: seq<Byte>, digest: seq<Byte>,
    message: Option<string>, now: nat, plan: Plan)
    requires db.Wf() && pageId in db.pages.rows
    requires Ok(plan, Connect) && Ok(plan, InsertFileDataRow) && Ok(plan, InsertRevisionRow) && Ok(plan, UpdateLatest)
    ensures var r := PageManager.InsertRevision(db, userId, pageId, parent, content, digest, message, now, plan);
      var rid, bid := db.revisions.next, db.fileData.next;
      && r.0 == rid
      && r.1 == db.(
           pages := db.pages.(rows := db.pages.rows[pageId := db.pages.rows[pageId].(latestRevisionId := Some(rid))]),
           revisions := db.revisions.Add(RevisionRow(pageId, userId, Some(parent), message, bid, now)),
           fileData := db.fileData.Add(FileDataRow(content, Checksum.Hex(digest), now)))
  {
  }

  /**
   With no transaction, a missing page is only noticed by the final UPDATE:
   the call reports -1, yet the blob and the orphan revision stay written.
   */
  lemma InsertRevisionOnMissingPage(
    db: Db, userId: int, pageId: int, parent: int, content: seq<Byte>, digest: seq<Byte>,
    message: Option<string>, now: nat, plan: Plan)
    requires pageId !in db.pages.rows
    requires Ok(plan, Connect) && Ok(plan, InsertFileDataRow) && Ok(plan, InsertRevisionRow)
    ensures var r := PageManager.InsertRevision(db, userId, pageId, parent, content, digest, message, now, plan);
      && r.0 == -1
      && r.1 == db.(
           revisions := db.revisions.Add(RevisionRow(pageId, userId, Some(parent), message, db.fileData.next, now)),
           fileData := db.fileData.Add(FileDataRow(content, Checksum.Hex(digest), now)))
  {
  }

  /** The parent id is stored as given and never checked: it cannot change the outcome. */
  lemma InsertRevisionIgnoresParent(
    db: Db, userId: int, pageId: int, p1: int, p2: int, content: seq<Byte>, digest: seq<Byte>,
    message: Option<string>, now: nat, plan: Plan)
    ensures PageManager.InsertRevision(db, userId, pageId, p1, content, digest, message, now, plan).0
         == PageManager.InsertRevision(db, userId, pageId, p2, content, digest, message, now, plan).0
  {
  }

  lemma InsertRevisionPreservesConsistency(
    db: Db, userId: int, pageId: int, parent: int, content: seq<Byte>, digest: seq<Byte>,
    message: Option<string>, now: nat, plan: Plan)
    requires Consistent(db)
    ensures Consistent(PageManager.InsertRevision(db, userId, pageId, parent, content, digest, message, now, plan).1)
  {
  }

  // ---------------------------------------------------------------- deletePage

  /**
   After the cascade the page and all its revisions are gone, the blobs they
   referenced are gone, and every other page, revision and blob is untouched.
   */
  lemma CascadeRemovesPage(db: Db, pageId: int)
    ensures var c := PageManager.Cascade(db, pageId);
      && pageId !in c.pages.rows
      && RevisionManager.IdsOfPage(c, pageId) == {}
      && RevisionManager.GetRevisionsByPageId(c, pageId, NoFault) == Returned([])
      && (forall b :: b in PageManager.BlobsOfPage(db, pageId) ==> b !in c.fileData.rows)
      && (forall q :: q in db.pages.rows && q != pageId ==> q in c.pages.rows && c.pages.rows[q] == db.pages.rows[q])
      && (forall id :: id in db.revisions.rows && db.revisions.rows[id].pageId != pageId ==>
            id in c.revisions.rows && c.revisions.rows[id] == db.revisions.rows[id])
      && (forall b :: b in db.fileData.rows && b !in PageManager.BlobsOfPage(db, pageId) ==>
            b in c.fileData.rows && c.fileData.rows[b] == db.fileData.rows[b])
  {
  }

  lemma CascadePreservesConsistency(db: Db, pageId: int)
    requires Consistent(db)
    ensures Consistent(PageManager.Cascade(db, pageId))
  {
    var c := PageManager.Cascade(db, pageId);
    assert c.pages.Wf() && c.revisions.Wf() && c.fileData.Wf();
    forall q | q in c.pages.rows
      ensures && c.pages.rows[q].latestRevisionId.Some?
              && c.pages.rows[q].latestRevisionId.value in c.revisions.rows
              && c.revisions.rows[c.pages.rows[q].latestRevisionId.value].pageId == q
    {
      assert q != pageId && c.pages.rows[q] == db.pages.rows[q];
      var l := db.pages.rows[q].latestRevisionId.value;
      assert db.revisions.rows[l].pageId == q;
      assert l !in PageManager.RevisionsOfPage(db, pageId);
      assert c.revisions.rows[l] == db.revisions.rows[l];
    }
  }

  lemma DeletePagePreservesConsistency(db: Db, pageId: int, plan: Plan)
    requires Consistent(db)
    ensures Consistent(PageManager.DeletePage(db, pageId, plan))
  {
    if PageManager.DeletePage(db, pageId, plan) != db {
      CascadePreservesConsistency(db, pageId);
    }
  }
}

=== FILE: page_manager.dfy ===
/**
 The page registry and the orchestration on top of the blob store and the
 revision log: page creation and deletion as single transactions, and
 revision insertion on a plain auto-commit connection.
 */
module PageManager {
  import opened Common
  import opened Schema
  import Listing
  import Checksum
  import FileDataManager
  import RevisionManager

  // ---------------------------------------------------------------- pages table

  /** INSERT INTO pages (group_id, page_name), leaving latest_revision_id NULL. */
  function InsertPage(db: Db, groupId: int, pageName: string, now: nat, f: Fault): (r: Exec<int>)
    ensures r.result.Returned? <==> f == NoFault
    ensures r.result.Returned? ==>
      && r.result.value == db.pages.next
      && r.db.pages.rows == db.pages.rows[r.result.value := PageRow(groupId, pageName, now, None)]
    ensures db.Wf() && r.result.Returned? ==> r.result.value !in db.pages.rows
    ensures f == Error ==> r.db == db
    ensures f == NoGeneratedKey ==> r.db.pages == db.pages.Add(PageRow(groupId, pageName, now, None))
    ensures r.db == db.(pages := r.db.pages)
    ensures db.Wf() ==> r.db.Wf()
  {
    var (o, t) := InsertRow(db.pages, PageRow(groupId, pageName, now, None), f);
    Exec(o, db.(pages := t))
  }

  /**
   UPDATE pages SET latest_revision_id = ? WHERE page_id = ?. Throws when no
   page matched; only that page's latest_revision_id changes.
   */
  function UpdatePageLatestRevision(db: Db, pageId: int, latestRevisionId: int, f: Fault): (r: Exec<()>)
    ensures r.result.Returned? <==> f == NoFault && pageId in db.pages.rows
    ensures r.result.Threw? ==> r.db == db
    ensures r.result.Returned? ==>
      r.db.pages.rows == db.pages.rows[pageId := db.pages.rows[pageId].(latestRevisionId := Some(latestRevisionId))]
    ensures r.db == db.(pages := r.db.pages) && r.db.pages.next == db.pages.next
  {
    if f != NoFault || pageId !in db.pages.rows then Exec(Threw, db)
    else
      var row := db.pages.rows[pageId].(latestRevisionId := Some(latestRevisionId));
      Exec(Returned(()), db.(pages := db.pages.(rows := db.pages.rows[pageId := row])))
  }

  /**
   SELECT latest_revision_id FROM pages WHERE page_id = ? on a connection of
   its own: -1 when the page is absent or anything fails, and 0 for a NULL
   latest_revision_id (JDBC `getLong`).
   */
  function GetLatestRevisionId(db: Db, pageId: int, plan: Plan): (r: int)
    ensures pageId !in db.pages.rows ==> r == -1
    ensures !Ok(plan, Connect) || !Ok(plan, SelectLatest) ==> r == -1
    ensures r >= 0 ==> pageId in db.pages.rows
  {
    if !Ok(plan, Connect) || !Ok(plan, SelectLatest) || pageId !in db.pages.rows then -1
    else NullAsZero(db.pages.rows[pageId].latestRevisionId)
  }

  /** DELETE FROM pages WHERE page_id = ?; returns the number of rows deleted. */
  function DeletePageRecord(db: Db, pageId: int, f: Fault): (r: Exec<int>)
    ensures r.result.Returned? <==> f == NoFault
    ensures r.result.Threw? ==> r.db == db
    ensures r.result.Returned? ==>
      && r.result.value == (if pageId in db.pages.rows then 1 else 0)
      && r.db.pages.rows.Keys == db.pages.rows.Keys - {pageId}
      && (forall id :: id in r.db.pages.rows ==> r.db.pages.rows[id] == db.pages.rows[id])
    ensures r.db == db.(pages := r.db.pages) && r.db.pages.next == db.pages.next
  {
    if f != NoFault then Exec(Threw, db)
    else Exec(Returned(if pageId in db.pages.rows then 1 else 0), db.(pages := db.pages.Remove(pageId)))
  }

  function IdsOfGroup(db: Db, groupId: int): set<int> {
    set id | id in db.pages.rows && db.pages.rows[id].groupId == groupId
  }

  function Pages(rows: map<int, PageRow>, ids: seq<int>): (r: seq<Page>)
    requires forall i :: 0 <= i < |ids| ==> ids[i] in rows
    ensures |r| == |ids|
    ensures forall i :: 0 <= i < |ids| ==> r[i] == PageOf(ids[i], rows[ids[i]])
  {
    if ids == [] then [] else [PageOf(ids[0], rows[ids[0]])] + Pages(rows, ids[1..])
  }

  function PageIdsOf(pages: seq<Page>): (r: seq<int>)
    ensures |r| == |pages|
    ensures forall i :: 0 <= i < |pages| ==> r[i] == pages[i].pageId
  {
    if pages == [] then [] else [pages[0].pageId] + PageIdsOf(pages[1..])
  }

  /**
   SELECT ... FROM pages WHERE group_id = ?: the group's pages, each once; an
   SQL error is swallowed and yields an empty list.
   */
  function SearchPage(db: Db, groupId: int, f: Fault): (r: seq<Page>)
    ensures f != NoFault ==> r == []
    ensures forall i :: 0 <= i < |r| ==>
      && r[i].pageId in db.pages.rows
      && r[i] == PageOf(r[i].pageId, db.pages.rows[r[i].pageId])
      && r[i].groupId == groupId
    ensures f == NoFault ==> forall id :: id in db.pages.rows && db.pages.rows[id].groupId == groupId ==>
      id in PageIdsOf(r)
    ensures forall i, j :: 0 <= i < j < |r| ==> r[i].pageId != r[j].pageId
  {
    if f != NoFault then []
    else
      var ids := Listing.OrderBy(IdsOfGroup(db, groupId), k => 0);
      var pages := Pages(db.pages.rows, ids);
      assert PageIdsOf(pages) == ids;
      pages
  }

  // ---------------------------------------------------------------- makePage

  /** The statements of `makePage`, all of which must succeed for it to commit. */
  predicate MakePageClean(plan: Plan) {
    && Ok(plan, Connect) && Ok(plan, InsertPageRow) && Ok(plan, InsertFileDataRow)
    && Ok(plan, InsertRevisionRow) && Ok(plan, UpdateLatest) && Ok(plan, Commit)
  }

  /**
   One transaction: page row, blob, root revision, latest_revision_id, commit.
   Any exception rolls the store back to `db` and yields -1.
   */
  function MakePage(
    db: Db, userId: int, groupId: int, pageName: string, fileContent: seq<Byte>, digest: seq<Byte>,
    commitMessage: Option<string>, now: nat, plan: Plan): (r: (int, Db))
    ensures db.Wf() ==> (r.0 != -1 <==> MakePageClean(plan))
    ensures r.0 == -1 ==> r.1 == db
    ensures r.0 != -1 ==> r.0 == db.pages.next
  {
    if !Ok(plan, Connect) then (-1, db)
    else
      var p := InsertPage(db, groupId, pageName, now, At(plan, InsertPageRow));
      if p.result.Threw? || p.result.value == -1 then (-1, db)
      else
        var pageId := p.result.value;
        var checksum := Checksum.Hex(digest);
        var b := FileDataManager.InsertFileData(p.db, fileContent, checksum, now, At(plan, InsertFileDataRow));
        if b.result.Threw? then (-1, db)
        else
          var v := RevisionManager.InsertRevision(
            b.db, pageId, userId, None, commitMessage, b.result.value, now, At(plan, InsertRevisionRow));
          if v.result.Threw? then (-1, db)
          else
            var u := UpdatePageLatestRevision(v.db, pageId, v.result.value, At(plan, UpdateLatest));
            if u.result.Threw? || !Ok(plan, Commit) then (-1, db)
            else (pageId, u.db)
  }

  // ---------------------------------------------------------------- deletePage

  /** Revision ids of a list of records. */
  function RevisionIds(revs: seq<Revision>): set<int> {
    if revs == [] then {} else {revs[0].revisionId} + RevisionIds(revs[1..])
  }

  /** Blob ids of a list of records. */
  function BlobIds(revs: seq<Revision>): set<int> {
    if revs == [] then {} else {revs[0].actualDataId} + BlobIds(revs[1..])
  }

  lemma {:induction false} ListedIds(revs: seq<Revision>, i: int)
    requires 0 <= i < |revs|
    ensures revs[i].revisionId in RevisionIds(revs) && revs[i].actualDataId in BlobIds(revs)
    decreases i
  {
    if i > 0 {
      ListedIds(revs[1..], i - 1);
    }
  }

  lemma {:induction false} RevisionIdIndex(revs: seq<Revision>, x: int) returns (i: int)
    requires x in RevisionIds(revs)
    ensures 0 <= i < |revs| && revs[i].revisionId == x
    decreases |revs|
  {
    if revs[0].revisionId == x {
      i := 0;
    } else {
      var j := RevisionIdIndex(revs[1..], x);
      i := j + 1;
    }
  }

  lemma {:induction false} BlobIdIndex(revs: seq<Revision>, x: int) returns (i: int)
    requires x in BlobIds(revs)
    ensures 0 <= i < |revs| && revs[i].actualDataId == x
    decreases |revs|
  {
    if revs[0].actualDataId == x {
      i := 0;
    } else {
      var j := BlobIdIndex(revs[1..], x);
      i := j + 1;
    }
  }

  /**
   The cleanup loop of `deletePage`: delete each revision row, then its blob.
   A delete that finds no row is only a warning; an exception stops the loop.
   */
  function DeleteEach(db: Db, revs: seq<Revision>, plan: Plan): (r: Exec<()>)
    decreases |revs|
  {
    if revs == [] then Exec(Returned(()), db)
    else
      var d := RevisionManager.DeleteRevision(db, revs[0].revisionId, At(plan, DeleteRevisionRow(revs[0].revisionId)));
      if d.result.Threw? then Exec(Threw, d.db)
      else
        var b := FileDataManager.DeleteFileData(d.db, revs[0].actualDataId, At(plan, DeleteFileDataRow(revs[0].actualDataId)));
        if b.result.Threw? then Exec(Threw, b.db)
        else DeleteEach(b.db, revs[1..], plan)
  }

  /** Every delete the loop issues for `revs` succeeds. */
  predicate LoopClean(revs: seq<Revision>, plan: Plan) {
    revs == [] ||
      (&& Ok(plan, DeleteRevisionRow(revs[0].revisionId)) && Ok(plan, DeleteFileDataRow(revs[0].actualDataId))
       && LoopClean(revs[1..], plan))
  }

  lemma {:induction false} LoopCleanEach(revs: seq<Revision>, plan: Plan)
    ensures LoopClean(revs, plan) <==> forall i :: 0 <= i < |revs| ==>
      Ok(plan, DeleteRevisionRow(revs[i].revisionId)) && Ok(plan, DeleteFileDataRow(revs[i].actualDataId))
    decreases |revs|
  {
    if revs != [] {
      LoopCleanEach(revs[1..], plan);
      forall i | 0 < i < |revs| ensures revs[i] == revs[1..][i - 1] { }
    }
  }

  lemma RemoveThenRemoveAll<T>(t: Table<T>, a: int, s: set<int>)
    ensures t.Remove(a).RemoveAll(s) == t.RemoveAll({a} + s)
  {
    assert t.rows - {a} - s == t.rows - ({a} + s);
  }

  lemma {:induction false} DeleteEachEffect(db: Db, revs: seq<Revision>, plan: Plan)
    ensures DeleteEach(db, revs, plan).result.Returned? <==> LoopClean(revs, plan)
    ensures DeleteEach(db, revs, plan).result.Returned? ==>
      DeleteEach(db, revs, plan).db ==
        db.(revisions := db.revisions.RemoveAll(RevisionIds(revs)),
            fileData := db.fileData.RemoveAll(BlobIds(revs)))
    decreases |revs|
  {
    if revs == [] {
      assert db.revisions.rows - {} == db.revisions.rows;
      assert db.fileData.rows - {} == db.fileData.rows;
    } else {
      var head := revs[0];
      var d := db.(revisions := db.revisions.Remove(head.revisionId));
      var b := d.(fileData := d.fileData.Remove(head.actualDataId));
      DeleteEachEffect(b, revs[1..], plan);
      RemoveThenRemoveAll(db.revisions, head.revisionId, RevisionIds(revs[1..]));
      RemoveThenRemoveAll(db.fileData, head.actualDataId, BlobIds(revs[1..]));
    }
  }

  /** Revision ids of the page. */
  function RevisionsOfPage(db: Db, pageId: int): set<int> {
    RevisionManager.IdsOfPage(db, pageId)
  }

  /** Blob ids referenced by the page's revisions. */
  function BlobsOfPage(db: Db, pageId: int): set<int> {
    set id | id in RevisionsOfPage(db, pageId) :: db.revisions.rows[id].actualDataId
  }

  /**
   The committed effect of deleting a page: its revisions, the blobs they
   reference, and the page row are gone; nothing else changes.
   */
  function Cascade(db: Db, pageId: int): Db {
    db.(pages := db.pages.Remove(pageId),
        revisions := db.revisions.RemoveAll(RevisionsOfPage(db, pageId)),
        fileData := db.fileData.RemoveAll(BlobsOfPage(db, pageId)))
  }

  /** Every statement `deletePage` issues for this page succeeds. */
  predicate DeletePageClean(db: Db, pageId: int, plan: Plan) {
    && Ok(plan, Connect) && Ok(plan, SelectRevisions) && Ok(plan, DeletePageRow) && Ok(plan, Commit)
    && forall id :: id in RevisionsOfPage(db, pageId) ==>
         Ok(plan, DeleteRevisionRow(id)) && Ok(plan, DeleteFileDataRow(db.revisions.rows[id].actualDataId))
  }

  lemma ListedRevisionIds(db: Db, pageId: int, revs: seq<Revision>)
    requires RevisionManager.GetRevisionsByPageId(db, pageId, NoFault) == Returned(revs)
    ensures RevisionIds(revs) == RevisionsOfPage(db, pageId)
  {
    forall id | id in RevisionsOfPage(db, pageId) ensures id in RevisionIds(revs) {
      assert id in RevisionManager.IdsOf(revs);
      var i :| 0 <= i < |revs| && RevisionManager.IdsOf(revs)[i] == id;
      ListedIds(revs, i);
    }
    forall id | id in RevisionIds(revs) ensures id in RevisionsOfPage(db, pageId) {
      var i := RevisionIdIndex(revs, id);
    }
  }

  lemma ListedBlobIds(db: Db, pageId: int, revs: seq<Revision>)
    requires RevisionManager.GetRevisionsByPageId(db, pageId, NoFault) == Returned(revs)
    ensures BlobIds(revs) == BlobsOfPage(db, pageId)
  {
    forall b | b in BlobsOfPage(db, pageId) ensures b in BlobIds(revs) {
      var id :| id in RevisionsOfPage(db, pageId) && db.revisions.rows[id].actualDataId == b;
      assert id in RevisionManager.IdsOf(revs);
      var i :| 0 <= i < |revs| && RevisionManager.IdsOf(revs)[i] == id;
      assert revs[i] == RevisionOf(id, db.revisions.rows[id]);
      ListedIds(revs, i);
    }
    forall b | b in BlobIds(revs) ensures b in BlobsOfPage(db, pageId) {
      var i := BlobIdIndex(revs, b);
      var id := revs[i].revisionId;
      assert id in db.revisions.rows && revs[i] == RevisionOf(id, db.revisions.rows[id]);
      assert id in RevisionsOfPage(db, pageId);
      assert db.revisions.rows[id].actualDataId == b;
    }
  }

  lemma ListedLoopClean(db: Db, pageId: int, revs: seq<Revision>, plan: Plan)
    requires RevisionManager.GetRevisionsByPageId(db, pageId, NoFault) == Returned(revs)
    ensures LoopClean(revs, plan) <==>
      forall id :: id in RevisionsOfPage(db, pageId) ==>
        Ok(plan, DeleteRevisionRow(id)) && Ok(plan, DeleteFileDataRow(db.revisions.rows[id].actualDataId))
  {
    LoopCleanEach(revs, plan);
    if forall id :: id in RevisionsOfPage(db, pageId) ==>
        Ok(plan, DeleteRevisionRow(id)) && Ok(plan, DeleteFileDataRow(db.revisions.rows[id].actualDataId)) {
      forall i | 0 <= i < |revs|
        ensures Ok(plan, DeleteRevisionRow(revs[i].revisionId)) && Ok(plan, DeleteFileDataRow(revs[i].actualDataId))
      {
        assert revs[i].revisionId in RevisionsOfPage(db, pageId);
      }
    }
    if LoopClean(revs, plan) {
      forall id | id in RevisionsOfPage(db, pageId)
        ensures Ok(plan, DeleteRevisionRow(id)) && Ok(plan, DeleteFileDataRow(db.revisions.rows[id].actualDataId))
      {
        assert id in RevisionManager.IdsOf(revs);
        var i :| 0 <= i < |revs| && RevisionManager.IdsOf(revs)[i] == id;
        assert revs[i].revisionId == id;
      }
    }
  }

  /**
   One transaction: list the page's revisions, delete each with its blob,
   delete the page row (which must exist), commit. Any exception rolls back,
   so the store ends either untouched or with the whole cascade applied.
   */
  function DeletePage(db: Db, pageId: int, plan: Plan): (r: Db)
    ensures r == db || r == Cascade(db, pageId)
    ensures pageId !in db.pages.rows ==> r == db
    ensures pageId in db.pages.rows ==> (r == Cascade(db, pageId) <==> DeletePageClean(db, pageId, plan))
  {
    if !Ok(plan, Connect) then db
    else
      var revs := RevisionManager.GetRevisionsByPageId(db, pageId, At(plan, SelectRevisions));
      if revs.Threw? then db
      else
        ListedRevisionIds(db, pageId, revs.value);
        ListedBlobIds(db, pageId, revs.value);
        ListedLoopClean(db, pageId, revs.value, plan);
        DeleteEachEffect(db, revs.value, plan);
        var e := DeleteEach(db, revs.value, plan);
        if e.result.Threw? then db
        else
          var d := DeletePageRecord(e.db, pageId, At(plan, DeletePageRow));
          if d.result.Threw? || d.result.value == 0 || !Ok(plan, Commit) then db
          else d.db
  }

  // ---------------------------------------------------------------- insertRevision

  /**
   Blob, revision row, latest_revision_id, each auto-committed on its own: there
   is no transaction, so a later failure leaves the earlier rows in place.
   The parent is a Java `long`, so it is always written as a value.
   */
  function InsertRevision(
    db: Db, userId: int, pageId: int, parentRevisionId: int, content: seq<Byte>, digest: seq<Byte>,
    commitMessage: Option<string>, now: nat, plan: Plan): (r: (int, Db))
    ensures db.Wf() ==> (r.0 != -1 <==>
      Ok(plan, Connect) && Ok(plan, InsertFileDataRow) && Ok(plan, InsertRevisionRow) && Ok(plan, UpdateLatest)
      && pageId in db.pages.rows)
    ensures r.0 != -1 ==> r.0 == db.revisions.next
  {
    if !Ok(plan, Connect) then (-1, db)
    else
      var b := FileDataManager.InsertFileData(db, content, Checksum.Hex(digest), now, At(plan, InsertFileDataRow));
      if b.result.Threw? then (-1, b.db)
      else
        var v := RevisionManager.InsertRevision(
          b.db, pageId, userId, Some(parentRevisionId), commitMessage, b.result.value, now, At(plan, InsertRevisionRow));
        if v.result.Threw? then (-1, v.db)
        else
          var u := UpdatePageLatestRevision(v.db, pageId, v.result.value, At(plan, UpdateLatest));
          if u.result.Threw? then (-1, u.db)
          else (v.result.value, u.db)
  }
}

=== FILE: revision_controller.dfy ===
/**
 Parent selection in front of a revision upload: parent 0 means "the
 page's latest revision", any other parent must appear in the revision list
 the editor shows.
 */
module RevisionController {
  import opened Common
  import opened Schema
  import PageManager
  import FileIo

  predicate Listed(revisionList: seq<Revision>, parentId: int) {
    exists i :: 0 <= i < |revisionList| && revisionList[i].revisionId == parentId
  }

  /**
   `insertRevision_con`: with parent 0 the latest revision id becomes the
   parent; a non-zero parent is used only when it is listed. The result says
   only whether a parent was found, not whether anything was stored.
   */
  function InsertRevisionCon(
    db: Db, me: int, pageId: int, revisionList: seq<Revision>, parentId: int, choice: FileIo.FileChoice,
    message: Option<string>, now: nat, plan: Plan): (r: (bool, Db))
    ensures r.0 <==> parentId == 0 || Listed(revisionList, parentId)
    ensures !r.0 ==> r.1 == db
  {
    if parentId == 0 then
      var latest := PageManager.GetLatestRevisionId(db, pageId, plan);
      (true, FileIo.InsertFileToRevision(db, me, pageId, latest, choice, message, now, plan).1)
    else if Listed(revisionList, parentId) then
      (true, FileIo.InsertFileToRevision(db, me, pageId, parentId, choice, message, now, plan).1)
    else (false, db)
  }

  /**
   `insertRevNoparent`: the latest revision id, -1 included, is always the
   parent, so it stores what an upload with parent 0 stores, whatever list
   the editor shows.
   */
  function InsertRevNoparent(
    db: Db, me: int, pageId: int, choice: FileIo.FileChoice, message: Option<string>, now: nat, plan: Plan): (r: Db)
    ensures forall revisionList: seq<Revision> {:trigger InsertRevisionCon(db, me, pageId, revisionList, 0, choice, message, now, plan)} ::
      r == InsertRevisionCon(db, me, pageId, revisionList, 0, choice, message, now, plan).1
  {
    var latest := PageManager.GetLatestRevisionId(db, pageId, plan);
    FileIo.InsertFileToRevision(db, me, pageId, latest, choice, message, now, plan).1
  }

  /** Every statement of a revision upload succeeds and the upload itself is accepted. */
  predicate UploadClean(choice: FileIo.FileChoice, message: Option<string>, plan: Plan) {
    && choice.Chosen? && !FileIo.RejectedMessage(message)
    && Ok(plan, Connect) && Ok(plan, SelectLatest) && Ok(plan, InsertFileDataRow)
    && Ok(plan, InsertRevisionRow) && Ok(plan, UpdateLatest)
  }

  /**
   With parent 0 on an existing page the new revision's parent is the
   revision that was latest before, and it becomes the new latest.
   */
  lemma AutoParentIsPreviousLatest(
    db: Db, me: int, pageId: int, revisionList: seq<Revision>, choice: FileIo.FileChoice,
    message: Option<string>, now: nat, plan: Plan)
    requires db.Wf() && pageId in db.pages.rows && UploadClean(choice, message, plan)
    ensures var r := InsertRevisionCon(db, me, pageId, revisionList, 0, choice, message, now, plan);
      var rid := db.revisions.next;
      && r.0
      && rid in r.1.revisions.rows
      && r.1.revisions.rows[rid].pageId == pageId
      && r.1.revisions.rows[rid].parentRevisionId == Some(NullAsZero(db.pages.rows[pageId].latestRevisionId))
      && r.1.pages.rows[pageId].latestRevisionId == Some(rid)
  {
  }

  /**
   On a missing page the latest id reads as -1, and that -1 is stored as the
   parent of an orphan revision although the upload fails at the latest_revision_id update.
   */
  lemma NoparentOnMissingPage(
    db: Db, me: int, pageId: int, choice: FileIo.FileChoice, message: Option<string>, now: nat, plan: Plan)
    requires pageId !in db.pages.rows && UploadClean(choice, message, plan)
    ensures var r := InsertRevNoparent(db, me, pageId, choice, message, now, plan);
      && r.revisions.rows == db.revisions.rows[db.revisions.next :=
           RevisionRow(pageId, me, Some(-1), message, db.fileData.next, now)]
      && r.pages == db.pages
  {
  }

  /**
   A non-zero parent found in the list is the parent of the new revision,
   and that revision becomes the page's latest.
   */
  lemma ListedParentIsUsed(
    db: Db, me: int, pageId: int, revisionList: seq<Revision>, parentId: int, choice: FileIo.FileChoice,
    message: Option<string>, now: nat, plan: Plan)
    requires db.Wf() && pageId in db.pages.rows && UploadClean(choice, message, plan)
    requires parentId != 0 && Listed(revisionList, parentId)
    ensures var r := InsertRevisionCon(db, me, pageId, revisionList, parentId, choice, message, now, plan);
      var rid := db.revisions.next;
      && r.0
      && rid in r.1.revisions.rows
      && r.1.revisions.rows[rid].pageId == pageId
      && r.1.revisions.rows[rid].parentRevisionId == Some(parentId)
      && r.1.pages.rows[pageId].latestRevisionId == Some(rid)
  {
  }

  /**
   On an existing page `insertRevNoparent` makes the previous latest revision
   the parent of the new one, and the new one the latest.
   */
  lemma NoparentIsPreviousLatest(
    db: Db, me: int, pageId: int, choice: FileIo.FileChoice, message: Option<string>, now: nat, plan: Plan)
    requires db.Wf() && pageId in db.pages.rows && UploadClean(choice, message, plan)
    ensures var r := InsertRevNoparent(db, me, pageId, choice, message, now, plan);
      var rid := db.revisions.next;
      && rid in r.revisions.rows
      && r.revisions.rows[rid].pageId == pageId
      && r.revisions.rows[rid].parentRevisionId == Some(NullAsZero(db.pages.rows[pageId].latestRevisionId))
      && r.pages.rows[pageId].latestRevisionId == Some(rid)
  {
  }

  /** A non-zero parent missing from the list is refused without touching the store. */
  lemma UnlistedParentRefused(
    db: Db, me: int, pageId: int, revisionList: seq<Revision>, parentId: int, choice: FileIo.FileChoice,
    message: Option<string>, now: nat, plan: Plan)
    requires parentId != 0 && forall i :: 0 <= i < |revisionList| ==> revisionList[i].revisionId != parentId
    ensures InsertRevisionCon(db, me, pageId, revisionList, parentId, choice, message, now, plan) == (false, db)
  {
  }

  /** The result is true even when the insert failed and stored nothing. */
  lemma TrueDespiteFailedInsert(
    db: Db, me: int, pageId: int, revisionList: seq<Revision>, choice: FileIo.FileChoice,
    message: Option<string>, now: nat, plan: Plan)
    requires Ok(plan, Connect) && At(plan, InsertFileDataRow) == Error
    ensures InsertRevisionCon(db, me, pageId, revisionList, 0, choice, message, now, plan) == (true, db)
  {
  }
}

=== FILE: revision_manager.dfy ===
/** The revision log: the `file_revisions` table. */
module RevisionManager {
  import opened Common
  import opened Schema
  import Listing

  /**
   INSERT INTO file_revisions. A null parent is written as NULL, any other
   parent as given; nothing checks that the parent exists or belongs to the
   same page. Only `file_revisions` changes.
   */
  function InsertRevision(
    db: Db, pageId: int, committedByUserId: int, parentRevisionId: Option<int>,
    commitMessage: Option<string>, actualDataId: int, now: nat, f: Fault): (r: Exec<int>)
    ensures r.result.Returned? <==> f == NoFault
    ensures r.result.Returned? ==>
      && r.result.value == db.revisions.next
      && r.db.revisions.rows ==
         db.revisions.rows[r.result.value :=
           RevisionRow(pageId, committedByUserId, parentRevisionId, commitMessage, actualDataId, now)]
    ensures db.Wf() && r.result.Returned? ==> r.result.value !in db.revisions.rows
    ensures f == Error ==> r.db == db
    ensures f == NoGeneratedKey ==>
      r.db.revisions == db.revisions.Add(RevisionRow(pageId, committedByUserId, parentRevisionId, commitMessage, actualDataId, now))
    ensures r.db == db.(revisions := r.db.revisions)
    ensures db.Wf() ==> r.db.Wf()
  {
    var row := RevisionRow(pageId, committedByUserId, parentRevisionId, commitMessage, actualDataId, now);
    var (o, t) := InsertRow(db.revisions, row, f);
    Exec(o, db.(revisions := t))
  }

  /**
   DELETE FROM file_revisions WHERE revision_id = ?. Children that name the
   deleted revision as parent are left as they are.
   */
  function DeleteRevision(db: Db, revisionId: int, f: Fault): (r: Exec<int>)
    ensures r.result.Returned? <==> f == NoFault
    ensures r.result.Threw? ==> r.db == db
    ensures r.result.Returned? ==>
      && r.result.value == (if revisionId in db.revisions.rows then 1 else 0)
      && r.db.revisions.rows.Keys == db.revisions.rows.Keys - {revisionId}
      && (forall id :: id in r.db.revisions.rows ==> r.db.revisions.rows[id] == db.revisions.rows[id])
    ensures r.db == db.(revisions := r.db.revisions)
    ensures r.db.revisions.next == db.revisions.next
  {
    if f != NoFault then Exec(Threw, db)
    else
      var n := if revisionId in db.revisions.rows then 1 else 0;
      Exec(Returned(n), db.(revisions := db.revisions.Remove(revisionId)))
  }

  /** SELECT * ... WHERE revision_id = ?: null when absent; a NULL parent reads back as 0. */
  function GetRevision(db: Db, revisionId: int, f: Fault): (r: Outcome<Option<Revision>>)
    ensures r.Returned? <==> f == NoFault
    ensures r.Returned? ==> (r.value.Some? <==> revisionId in db.revisions.rows)
    ensures r.Returned? && r.value.Some? ==>
      var row := db.revisions.rows[revisionId];
      && r.value.value.revisionId == revisionId
      && r.value.value.pageId == row.pageId
      && r.value.value.actualDataId == row.actualDataId
      && r.value.value.committedByUserId == row.committedByUserId
      && r.value.value.commitMessage == row.commitMessage
      && r.value.value.createdAt == row.createdAt
      && (row.parentRevisionId.None? ==> r.value.value.parentRevisionId == 0)
      && (row.parentRevisionId.Some? ==> r.value.value.parentRevisionId == row.parentRevisionId.value)
  {
    if f != NoFault then Threw
    else if revisionId !in db.revisions.rows then Returned(None)
    else Returned(Some(RevisionOf(revisionId, db.revisions.rows[revisionId])))
  }

  /** Ids of the revisions whose page id is `pageId`. */
  function IdsOfPage(db: Db, pageId: int): set<int> {
    set id | id in db.revisions.rows && db.revisions.rows[id].pageId == pageId
  }

  /** The records for `ids`, in the order of `ids`. */
  function Records(rows: map<int, RevisionRow>, ids: seq<int>): (r: seq<Revision>)
    requires forall i :: 0 <= i < |ids| ==> ids[i] in rows
    ensures |r| == |ids|
    ensures forall i :: 0 <= i < |ids| ==> r[i] == RevisionOf(ids[i], rows[ids[i]])
  {
    if ids == [] then [] else [RevisionOf(ids[0], rows[ids[0]])] + Records(rows, ids[1..])
  }

  /** The revision ids of a list of records. */
  function IdsOf(revs: seq<Revision>): (r: seq<int>)
    ensures |r| == |revs|
    ensures forall i :: 0 <= i < |revs| ==> r[i] == revs[i].revisionId
  {
    if revs == [] then [] else [revs[0].revisionId] + IdsOf(revs[1..])
  }

  /**
   SELECT * ... WHERE page_id = ?: every revision of the page, each once. SQL
   promises no order; the model lists them by id.
   */
  function GetRevisionsByPageId(db: Db, pageId: int, f: Fault): (r: Outcome<seq<Revision>>)
    ensures r.Returned? <==> f == NoFault
    ensures r.Returned? ==> forall i :: 0 <= i < |r.value| ==>
      && r.value[i].revisionId in db.revisions.rows
      && r.value[i] == RevisionOf(r.value[i].revisionId, db.revisions.rows[r.value[i].revisionId])
      && r.value[i].pageId == pageId
    ensures r.Returned? ==> forall id :: id in db.revisions.rows && db.revisions.rows[id].pageId == pageId ==>
      id in IdsOf(r.value)
    ensures r.Returned? ==> forall i, j :: 0 <= i < j < |r.value| ==> r.value[i].revisionId != r.value[j].revisionId
  {
    if f != NoFault then Threw
    else
      var ids := Listing.OrderBy(IdsOfPage(db, pageId), k => 0);
      var revs := Records(db.revisions.rows, ids);
      assert IdsOf(revs) == ids;
      Returned(revs)
  }

  /** Reading a revision back returns what was written, NULL parent as 0. */
  lemma InsertThenGet(
    db: Db, pageId: int, author: int, parent: Option<int>, message: Option<string>, actualDataId: int, now: nat)
    ensures var w := InsertRevision(db, pageId, author, parent, message, actualDataId, now, NoFault);
            w.result.Returned? &&
            GetRevision(w.db, w.result.value, NoFault) ==
              Returned(Some(Revision(w.result.value, pageId, actualDataId, author, NullAsZero(parent), message, now)))
  {
  }
}

=== FILE: schema.dfy ===
/**
 The database behind the managers: one table per relation, each a finite map
 from an AUTO_INCREMENT id to a row plus the next id the counter will hand
 out. Row shapes follow the columns the SQL statements name; the record types
 at the end are the Java records the managers build from result sets.
 */
module Schema {
  import opened Common

  // ---------------------------------------------------------------- rows

  /** A `pages` row; `latestRevisionId` is NULL until the first revision is linked. */
  datatype PageRow = PageRow(groupId: int, pageName: string, createdAt: nat, latestRevisionId: Option<int>)

  /** A `file_revisions` row; `parentRevisionId` is NULL for a root revision. */
  datatype RevisionRow = RevisionRow(
    pageId: int,
    committedByUserId: int,
    parentRevisionId: Option<int>,
    commitMessage: Option<string>,
    actualDataId: int,
    createdAt: nat)

  /** A `file_data` row: the content blob and its hex checksum. */
  datatype FileDataRow = FileDataRow(content: seq<Byte>, checksum: string, createdAt: nat)

  /** A `group_data` row. */
  datatype GroupRow = GroupRow(groupName: string, joinKey: string, createdByUserId: int, createdAt: nat)

  /** A `group_membership` row; the role is "admin" or "user". */
  datatype MembershipRow = MembershipRow(groupId: int, userId: int, userRole: string)

  /** A `comments` row; the author's name is copied in when the comment is written. */
  datatype CommentRow = CommentRow(
    pageId: int,
    commentedByUserId: int,
    commentedByUserName: string,
    commentData: string,
    createdAt: nat)

  /** A `users` row; this part of the system only reads the table. */
  datatype UserRow = UserRow(userName: string, createdAt: nat)

  // ---------------------------------------------------------------- tables

  /** A table: rows by id, and the id the next INSERT will receive. */
  datatype Table<T> = Table(rows: map<int, T>, next: int) {

    /** Ids are positive and every stored id was handed out before `next`. */
    predicate Wf() {
      1 <= next && forall id :: id in rows ==> 1 <= id < next
    }

    /** INSERT: the row gets the counter's id and the counter moves on. */
    function Add(row: T): Table<T> {
      Table(rows[next := row], next + 1)
    }

    /** DELETE ... WHERE id = ?; the counter is not reused. */
    function Remove(id: int): Table<T> {
      Table(rows - {id}, next)
    }

    /** DELETE of every id in `ids`. */
    function RemoveAll(ids: set<int>): Table<T> {
      Table(rows - ids, next)
    }
  }

  /** The whole store. `users` is read-only here, so it has no counter. */
  datatype Db = Db(
    pages: Table<PageRow>,
    revisions: Table<RevisionRow>,
    fileData: Table<FileDataRow>,
    groups: Table<GroupRow>,
    memberships: Table<MembershipRow>,
    comments: Table<CommentRow>,
    users: map<int, UserRow>)
  {
    predicate Wf() {
      pages.Wf() && revisions.Wf() && fileData.Wf() && groups.Wf() && memberships.Wf() && comments.Wf()
    }
  }

  // ---------------------------------------------------------------- faults

  /**
   How one statement ends. `Error` is an SQLException before anything is
   written (a driver error, or an INSERT that affected no row).
   `NoGeneratedKey` is an INSERT that wrote its row but returned no key: the
   code throws after the write, so the row is there unless a rollback
   removes it. Statements other than INSERT treat both as an exception
   before any write.
   */
  datatype Fault = NoFault | Error | NoGeneratedKey

  /** The statements an operation can issue, so a test plan can break any one of them. */
  datatype Stmt =
    | Connect                        // borrowing a connection from the pool; one entry covers
                                     // every connection an operation borrows
    | Commit
    | InsertPageRow | UpdateLatest | DeletePageRow | SelectLatest | SelectPages
    | InsertFileDataRow | DeleteFileDataRow(actualDataId: int)
    | InsertRevisionRow | DeleteRevisionRow(revisionId: int) | SelectRevision | SelectRevisions
    | SelectUserName | InsertCommentRow | SelectCommentAuthor(commentId: int)
    | DeleteCommentRow(commentId: int) | SelectComments | DeleteComments
    | SelectMembershipCount | InsertMembershipRow | SelectGroupByKey | InsertGroupRow
    | SelectGroupCreator | DeleteMemberships | DeleteGroupRow | SelectKeyCount(attempt: nat)
    | SelectGroupIdByKey

  /** Which statements of one operation fail, and how; absent statements succeed. */
  type Plan = map<Stmt, Fault>

  function At(plan: Plan, s: Stmt): Fault {
    if s in plan then plan[s] else NoFault
  }

  /** Statement `s` succeeds under `plan`. */
  predicate Ok(plan: Plan, s: Stmt) {
    At(plan, s) == NoFault
  }

  /** An INSERT that asks for the generated key. */
  function InsertRow<T>(t: Table<T>, row: T, f: Fault): (r: (Outcome<int>, Table<T>))
    ensures r.0.Returned? <==> f == NoFault
    ensures r.0.Returned? ==> r.0.value == t.next
    ensures r.1 == (if f == Error then t else t.Add(row))
  {
    match f
    case NoFault => (Returned(t.next), t.Add(row))
    case Error => (Threw, t)
    case NoGeneratedKey => (Threw, t.Add(row))
  }

  /** A statement paired with the store it leaves behind. */
  datatype Exec<T> = Exec(result: Outcome<T>, db: Db)

  // ---------------------------------------------------------------- records

  /** JDBC `getLong` on a NULL column yields 0. */
  function NullAsZero(v: Option<int>): int {
    match v
    case None => 0
    case Some(x) => x
  }

  datatype Page = Page(pageId: int, groupId: int, pageName: string, createdAt: nat, latestRevisionId: int)

  datatype Revision = Revision(
    revisionId: int,
    pageId: int,
    actualDataId: int,
    committedByUserId: int,
    parentRevisionId: int,
    commitMessage: Option<string>,
    createdAt: nat)

  datatype Group = Group(groupId: int, groupName: string, joinKey: string, createdByUserId: int, createdAt: nat)

  datatype Comment = Comment(
    commentId: int,
    pageId: int,
    commentedByUserId: int,
    userName: string,
    commentData: string,
    createdAt: nat)

  function PageOf(id: int, row: PageRow): Page {
    Page(id, row.groupId, row.pageName, row.createdAt, NullAsZero(row.latestRevisionId))
  }

  function RevisionOf(id: int, row: RevisionRow): Revision {
    Revision(id, row.pageId, row.actualDataId, row.committedByUserId,
             NullAsZero(row.parentRevisionId), row.commitMessage, row.createdAt)
  }
}
